=== FILE: README.md ===
# PyOS command interpreter core, in Dafny

PyOS is a small shell emulator written in Python. Its interpreter, `os/__init__.py`, does the following:

- When the module is imported, it lets installed packages register extra commands. This happens before the start-up check below, so package warnings and load errors are printed even when the shell then refuses to start.
- It refuses to start unless a build marker file says `True`.
- It then reads prompt lines. Each line goes through these steps:
  1. `@(name)` references are expanded against the shell variables.
  2. The line is tokenized.
  3. The line is dispatched: the built-in commands are checked first (`login`, `let`, `vars`, `lc`, `cd`, `about`, `show`, `readfile`, `mkfile`, `rmfile`, `mkdir`, `echo`, `rmdir`, `gum`, `pwd`). Then come the registered package commands. Anything else is an unknown command.

This project models that decision logic as pure functions over immutable data and proves what the code promises about it.

| file | module | models |
|---|---|---|
| `wrappers.dfy` | `Wrappers` | `Option` |
| `text.dfy` | `Text` | Python's `str.strip` (whitespace or a character set), `split(c, 1)`, `str.replace` and `" ".join` over `seq<char>` |
| `expander.dfy` | `Expander` | `expand_variables`: the `re.sub` of `@\((\w+)\)` and the missing-variable warnings |
| `variables.dfy` | `Variables` | the shell variable store (a dict, so insertion-ordered), `let` and `vars` |
| `registry.dfy` | `Registry` | `register_package_command` and `load_package_commands` as a fold over package outcomes |
| `dispatcher.dfy` | `Dispatcher` | the `if`/`elif` chain of `emulate`: built-in names, arity checks, package calls, unknown commands |
| `echo.dfy` | `Echo` | `echo` and the five ordered replacements of `echo -e` |
| `credentials.dfy` | `Credentials` | `get_stored_passwords` line parsing and the `login` decision of `verify_password` |
| `buildgate.dfy` | `BuildGate` | `checkforbuild` and the start-up refusal |
| `shell.dfy` | `Shell` | `emulate` end to end, and the prompt loop's `exit` handling |

Dispatch returns an `Action` value, such as `ChangeDirectory(dir)` or `CallPackage(handler, args)`. Actions that touch the file system, the network or a package handler are described by that value, not performed. The tokenizer, the package table, the stored credentials and the hash check are parameters.

## Model

| member | source | states |
|---|---|---|
| Text.Strip | os/__init__.py:164 | the result neither starts nor ends with a strippable character and is never longer than the input |
| Text.StripOfPadded | os/__init__.py:136 | stripping text padded on both sides with strippable characters gives back exactly that text, provided the text is non-empty and has no strippable end of its own |
| Text.StripMargins | os/__init__.py:136 | every string is its stripped form with a margin of strippable characters on each side, so stripping removes only strippable characters and only at the ends |
| Text.StripIdempotent | os/__init__.py:164 | stripping twice is the same as stripping once |
| Text.StripKeepsContent | os/__init__.py:166-167 | stripping never adds a character and keeps every character it does not strip, so a line that contains `:` still contains it after `;` is stripped |
| Text.SplitFirst | os/__init__.py:168 | splitting at the first `c` gives a head without `c` and a tail, which rejoin with `c` to form the input |
| Text.SplitFirstOfJoined | os/__init__.py:415 | text of the form `head + c + tail`, with no `c` in the head, splits back into exactly `head` and `tail` |
| Text.JoinAppend | os/__init__.py:500-502 | joining one more item appends the separator and that item: the separator goes between items only |
| Text.ReplaceAll | os/__init__.py:494-498 | a replacement no longer than the pattern never lengthens the text, and an equal-length one keeps the length |
| Text.ReplaceAllAbsent | os/__init__.py:494-498 | text in which the pattern does not occur is left unchanged |
| Text.ReplaceAllFirst | os/__init__.py:494-498 | the leftmost occurrence is replaced, the text before it is kept verbatim, and the scan resumes after the occurrence (no overlap) |
| Text.ReplaceAllShort | os/__init__.py:494-498 | text no longer than the pattern, and different from it, is left unchanged |
| Text.ReplaceAllWhole | os/__init__.py:494-498 | the pattern on its own becomes the replacement |
| Expander.ReferenceAt | os/__init__.py:386 | a match at the front is a name of one or more word characters written as `@(name)` |
| Expander.ReferenceAtFinds | os/__init__.py:386 | every written reference to a valid name is matched, and with its whole name, because the greedy `\w+` stops at `)` |
| Expander.Expand | os/__init__.py:371-386 | every warning names a valid name that is not set, and there are at most as many warnings as four-character slices of the line |
| Expander.ExpandAppend | os/__init__.py:386 | the scan is left to right and local: expanding `a + b`, where `b` starts with `@` or is empty, is expanding `a` then `b` and concatenating texts and warnings |
| Expander.ExpandNoReference | os/__init__.py:384-386 | a line containing no reference is returned unchanged and prints no warning |
| Expander.SilentIffNoReference | os/__init__.py:375-386 | with no variables set, expansion is silent if and only if the line holds no reference |
| Expander.ExpandOneReference | os/__init__.py:375-386 | for `p + @(n) + q` with reference-free `p` and `q`: a set `n` gives `p + value + q` with no warning; an unset `n` gives `p + q` with exactly the one warning `[n]` |
| Expander.SelfReferenceStops | os/__init__.py:386 | expansion is single-pass: a value that is itself a reference is inserted as it is and not expanded again |
| Variables.Find | os/__init__.py:377 | the position found holds the name and no earlier binding does; nothing is found only when no binding has the name |
| Variables.Lookup | os/__init__.py:377-378 | the lookup finds nothing exactly when no binding has the name; in a store with distinct names it finds the value of the binding that has it |
| Variables.AsMap | os/__init__.py:369 | the map view holds exactly the names lookup finds, with the same values |
| Variables.Assign | os/__init__.py:417 | assignment keeps names distinct, binds the name to the new value and leaves every other name as it was; an existing name keeps its position and a new one is appended, as dict insertion order requires |
| Variables.AssignAsMap | os/__init__.py:417 | in the map view, assignment is the update of exactly one key |
| Variables.AssignTwice | os/__init__.py:417 | a second assignment to the same name replaces the first, so assignments do not accumulate |
| Variables.ParseLet | os/__init__.py:413 | `let` accepts its arguments if and only if there is exactly one argument and it contains `=` |
| Variables.ParseLetSplitsAtFirst | os/__init__.py:414-416 | the name is the stripped text before the first `=`, and the value is the stripped rest, which may contain further `=` |
| Variables.Let | os/__init__.py:412-420 | a rejected argument list prints the usage line and leaves the store unchanged; an accepted one updates the map view at the stripped name only and prints `Variable 'n' set to 'v'` |
| Variables.ListingShowsMap | os/__init__.py:422-428 | `vars` shows exactly the variables that are set: the empty-store line appears if and only if nothing is set; every set variable has a `  name='value'` line with its current value, at the position where it was first set; and every line after the header is a set variable with its current value |
| Variables.LetOverwritesListing | os/__init__.py:412-428 | after two assignments to the same name, `vars` shows the same number of lines, with the new value on that name's line and every other line unchanged |
| Registry.Register | os/__init__.py:64-72 | the table gains exactly the key, which maps to the new handler, and all other keys are unchanged; a warning appears if and only if the key was already there |
| Registry.RegisterAll | os/__init__.py:64-72 | a batch of registrations adds exactly the names it mentions, with at most one warning per registration |
| Registry.RegisterAllLastWins | os/__init__.py:72 | the last registration of a name decides its handler |
| Registry.RegisterAllUntouched | os/__init__.py:72 | a name no registration mentions keeps its handler, or stays absent |
| Registry.RegisterAllFreshIsSilent | os/__init__.py:70-71 | registering distinct names that are not yet present prints nothing |
| Registry.RegisterAllRepeatWarns | os/__init__.py:70-71 | registering a name a second time prints the overwrite warning |
| Registry.RegisterAllPresentWarns | os/__init__.py:70-71 | registering a name already in the table prints the overwrite warning |
| Registry.RegisterAllAppend | os/__init__.py:64-72 | registering two batches one after the other is the same as registering their concatenation |
| Registry.LoadIsolation | os/__init__.py:91-109 | a failing package does not stop the others: the final table is what all registrations of all packages, in scan order, produce |
| Registry.LoadPackages | os/__init__.py:91-109 | after the scan the table holds exactly the names it held before plus every name some package registered, including packages that raised afterwards |
| Registry.LoadReportsFailure | os/__init__.py:108-109 | every package whose import fails is reported with its name and error |
| Registry.LoadReportsHookError | os/__init__.py:101-109 | every package whose registration hook raises is reported with its name and error, after the registrations it made before raising have been kept |
| Registry.Discover | os/__init__.py:91-94 | a name is visited if and only if it is a directory of the listing holding an `__init__.py` |
| Registry.DiscoverInOrder | os/__init__.py:91-93 | the scan keeps listing order and visits each qualifying entry once: an entry contributes its own name, or nothing, between the names of the entries before it and those of the entries after it |
| Registry.LoadPackageCommandsTable | os/__init__.py:76-109 | with the root present, the table after start-up is what every discovered package's registrations produce, in scan order |
| Dispatcher.BuiltinNamed | os/__init__.py:400-518 | a command word names a built-in exactly when it is that built-in's name |
| Dispatcher.BuiltinNamedName | os/__init__.py:400-518 | each built-in's command word selects that built-in |
| Dispatcher.RunBuiltin | os/__init__.py:400-518 | a built-in prints its own usage line, and does nothing else, if and only if its argument list is not one it accepts; it never calls a package; an accepted argument list yields an action of that built-in's own kind that carries exactly those arguments, in order (`login` the user then the password, `let` the parsed binding, `echo` the text `echo` prints) |
| Dispatcher.Dispatch | os/__init__.py:393-524 | no tokens means no action; a built-in name runs that built-in whatever the package table holds; a package handler is called with `tokens[1:]` if and only if the command is no built-in and is registered; otherwise the command is unknown |
| Echo.Unescape | os/__init__.py:493-499 | the rewritten argument is never longer than the original |
| Echo.EchoText | os/__init__.py:489-502 | `echo` with no arguments, or with `-e` alone, prints an empty line; a single argument other than `-e` is printed as it is |
| Echo.EchoAppend | os/__init__.py:501-502 | without `-e`, one more argument is printed after the others and a single space, exactly as typed |
| Echo.EchoFlagAppend | os/__init__.py:490-500 | with `-e`, one more argument is printed after the others and a single space, unescaped |
| Echo.UnescapePlain | os/__init__.py:493-499 | an argument without a backslash is printed unchanged |
| Echo.EchoFlagOnPlainArgs | os/__init__.py:489-502 | `echo -e` on backslash-free arguments prints what plain `echo` prints for them: the arguments joined by single spaces |
| Echo.UnescapeSingle | os/__init__.py:494-498 | each of the five escapes, on its own, becomes its control character or a backslash |
| Echo.EscapedBackslashBeforeN | os/__init__.py:494-498 | because the replacements run in order, `\\n` becomes a backslash and a newline, not a backslash and `n` |
| Credentials.ParseLine | os/__init__.py:163-170 | a line yields a record if and only if its stripped form contains `:` and neither starts with `{` nor ends with `}`; the user name has no `:`, and both halves carry no surrounding whitespace |
| Credentials.SplitRecord | os/__init__.py:166-170 | the user name of a kept line contains no `:`, and neither half has surrounding whitespace |
| Credentials.SplitRecordAt | os/__init__.py:168-170 | for any kept line whose `;`-stripped form is `u:h` with no `:` in `u`, the record is `u` and `h`, each stripped of whitespace |
| Credentials.SemicolonMargins | os/__init__.py:168-170 | any number of `;` on either side of `user:hash` is removed before the split, so `;;alice: h;;` gives the user `alice` |
| Credentials.ParseRecord | os/__init__.py:163-170 | the record format `user: hash;` reads back as the pair it was written from |
| Credentials.Collect | os/__init__.py:170 | every user in the table comes from some record for that user |
| Credentials.Parse | os/__init__.py:150-174 | no user name in the table contains `:` |
| Credentials.CollectHasUser | os/__init__.py:170 | a user is in the table if and only if some line is a record for that user |
| Credentials.CollectLastWins | os/__init__.py:170 | the hash stored for a user is the one on the last record for that user |
| Credentials.ParseHasUser | os/__init__.py:150-174 | for the file: a user has a stored hash if and only if some line is a record for that user |
| Credentials.ParseLastWins | os/__init__.py:150-174 | for the file: the stored hash is the one on the last line that is a record for the user |
| Credentials.LoginMessages | os/__init__.py:176-201 | login succeeds if and only if the user is stored and the hash check accepts the password against the stored hash; the "not found" line is printed if and only if the user is unknown, and then comes first; a stored user gets exactly one line; the last line is the success or the failure message |
| BuildGate.IsBuiltIffPadded | os/__init__.py:128-139 | the marker counts as built if and only if its content is `True` with only whitespace around it |
| BuildGate.BootIffPadded | os/__init__.py:528-530 | start-up proceeds if and only if the marker file could be read and holds `True` with only whitespace around it; otherwise it refuses with the not-built message and exit status 1 |
| Shell.Emulate | os/__init__.py:389-524 | the store stays well formed, the warnings are one `Variable 'n' not found` line per missing name in the order met, the store changes only on an assignment, and then it changes by exactly that assignment; when the tokenizer fails, the store is unchanged and the only line printed is `An unexpected error occurred: ` with the error |
| Shell.Report | os/__init__.py:400-524 | exactly the usage errors, logins, assignments, listings, `echo` and unknown commands print here; a login prints the success line if and only if the user is stored and the hash check accepts the password; `vars` shows every set variable with its current value; an unknown command prints `Unknown command: ` and its name; `echo` prints its text and a usage error its usage line |
| Shell.ShellLet | os/__init__.py:389-420 | a line that tokenizes to `let` plus arguments leaves the store exactly as the `let` command does and prints its message |
| Shell.ShellBuiltin | os/__init__.py:393-518 | a line whose command word is a built-in runs that built-in on the remaining tokens, whatever packages are registered: its usage line exactly when the arguments are not accepted, otherwise an action of its own kind carrying exactly those arguments |
| Shell.ShellEcho | os/__init__.py:489-502 | an `echo` line prints the `echo` text of its arguments and leaves the store alone |
| Shell.ShellLogin | os/__init__.py:400-408 | `login <user> <password>` prints the messages of checking that user's stored hash against that password: the success line if and only if the user is stored and the check accepts; the store is left alone |
| Shell.ShellVars | os/__init__.py:422-428 | a `vars` line prints the listing of the current store, whatever arguments follow, and leaves the store alone |
| Shell.ShellUnknown | os/__init__.py:519-524 | a command word that is neither built in nor registered prints `Unknown command: ` and the word, and nothing else happens |
| Shell.RegisteringBuiltinNameIsInert | os/__init__.py:400-521 | registering a package command under a built-in's name changes nothing the interpreter does with a line that names it |
| Shell.Loop | os/__init__.py:535-540 | the store stays well formed; the loop takes one step per line up to the first `exit`, where it stops, or to the end of input |
| Shell.LoopSingle | os/__init__.py:537-540 | a line that is not `exit` is handled by one `emulate` step, and the store it leaves is the store afterwards |
| Shell.LoopAppend | os/__init__.py:534-540 | the loop threads the store through the lines: lines without `exit` are handled first, and the rest of the input is handled from the store they left, its steps following theirs |
| Shell.Run | os/__init__.py:535-540 | each typed line is stripped; without a stripped `exit` every line is handled, and otherwise the loop stops at a line whose stripped form is `exit` |
| Shell.LoopStopsAtExit | os/__init__.py:538-539 | nothing typed after `exit` has any effect |

## Left out

- Tokenization (`shlex.split`): the tokenizer is the `tokenize` parameter of `Shell.Env`. Its `ValueError` becomes `LexFailure` and is reported as the prompt loop reports any exception.
- File system commands (`list_content_colored`, `change_directory`, `read_file`, `make_file`, `remove_file`, `make_directory`, `remove_directory`) and `pwd`: dispatch returns the corresponding action and prints nothing for it. These are pass-throughs to OS calls.
- `about` and `show c`/`show w`: dispatch returns `PrintAbout` or `PrintLicense`. The fixed licence texts and the version banner are not reproduced.
- `gum` and `checkforpackagemanager`: dispatch returns `InstallPackage(url)`. The "Gum not properly installed." check and the installer are calls into code outside this file.
- Package command handlers: a call is returned as `CallPackage(handler, args)`, with the handler left uninterpreted. An exception raised by a handler, which the prompt loop reports, is not modelled.
- `importlib`, `sys.path`, `hasattr` and `callable`: what importing a package and running its `register_shell_commands` hook do to the table is given as a `PackageLoad` value per package.
- Shell.Env: the credential table `passwords` is read once and stays fixed for a whole session. The source reads the password file again at every `login`, so a session that changes that file, through `mkfile`/`rmfile` or another process, can see a different table at its next `login`. File effects are not performed in this model, so nothing within it could change the table.
- Password hashing (`sha512_crypt.verify`): the `verify` parameter. An exception inside it makes the source reject the login, which `verify` returning false models. The diagnostic the source then prints to standard error ("An unexpected error occurred during password verification with passlib: …") is not modelled: `Credentials.LoginMessages` never produces it.
- Reading files: the credential file is given as its lines, and the build marker as its content. A missing or unreadable marker is `None`. When the marker exists but reading it raises, the source also prints "Error reading _isbuilded file: …" to standard error; that diagnostic is not modelled. A missing credential file, or one that fails while being read, gives no lines, since the source then returns an empty table; the error message it prints on a read failure is not modelled.
- Credentials.Parse: its own contract only says that user names contain no `:`. The last-record-wins behaviour is stated by `Credentials.ParseHasUser` and `Credentials.ParseLastWins`.
- Expander.Expand: its own contract bounds the warnings. The rewriting itself is stated by `ExpandNoReference`, `ExpandAppend`, `ExpandOneReference` and `SilentIffNoReference`.
- Expander.IsWordChar: word characters are the ASCII letters, digits and `_`. Python's `\w` also matches other Unicode letters and digits.
- Shell.Run: its own contract does not say that the line it stops at is the first `exit`. `Shell.Loop` states that for the stripped lines.
- Shell.IsExit: the `exit` test lower-cases ASCII letters only. No other character lower-cases to exactly one of the letters of `exit`; `İ` (U+0130) lower-cases to two characters, so a line holding it still cannot lower-case to `exit`, and the test is unaffected.
- Interactive input (`input`, the prompt text with user name, host name and working directory), end of input and Ctrl-C: the prompt loop is modelled over a given sequence of lines.
- ANSI colours and the start-up banner lines: output text only.
- The `let` command accepts any number of `=` in its argument and splits at the first one.

=== FILE: buildgate.dfy ===
/** The start-up gate (`checkforbuild` and the first lines of the main
    block): the interpreter only starts when the build marker file exists
    and holds the word `True`, surrounding whitespace aside. The marker is
    given as its content, `None` when the file is missing or cannot be read. */
module BuildGate {
  import opened Wrappers
  import opened Text

  /** `checkforbuild`. */
  predicate IsBuilt(marker: Option<string>) {
    marker.Some? && Strip(marker.value, Whitespace) == "True"
  }

  /** A marker counts as built exactly when it is `True` with nothing but
      whitespace around it. */
  lemma {:induction false} IsBuiltIffPadded(c: string)
    ensures IsBuilt(Some(c)) <==>
            exists a, b :: AllDropped(a, Whitespace) && AllDropped(b, Whitespace) && c == a + "True" + b
  {
    if IsBuilt(Some(c)) {
      BuiltMarkerIsPadded(c);
    }
    forall a, b | AllDropped(a, Whitespace) && AllDropped(b, Whitespace) && c == a + "True" + b
      ensures IsBuilt(Some(c))
    {
      PaddedMarkerIsBuilt(a, b);
    }
  }

  lemma {:induction false} BuiltMarkerIsPadded(c: string)
    requires IsBuilt(Some(c))
    ensures exists a, b :: AllDropped(a, Whitespace) && AllDropped(b, Whitespace) && c == a + "True" + b
  {
    var a, b := StripMargins(c, Whitespace);
    assert c == a + "True" + b;
  }

  lemma {:induction false} PaddedMarkerIsBuilt(a: string, b: string)
    requires AllDropped(a, Whitespace) && AllDropped(b, Whitespace)
    ensures IsBuilt(Some(a + "True" + b))
  {
    TrueIsTrimmed();
    StripOfPadded(a, "True", b, Whitespace);
  }

  lemma {:induction false} TrueIsTrimmed()
    ensures Trimmed("True", Whitespace)
  {
    assert "True"[0] == 'T' && "True"[3] == 'e';
  }

  const NotBuiltMessage := "PyOS is not built. Please run build.sh first."

  /** What start-up does before the prompt loop. */
  datatype Startup = Refuse(message: string, status: int) | Start

  /** Start-up refuses with the not-built message and exit status 1 exactly
      when the gate is closed. */
  function Boot(marker: Option<string>): (s: Startup)
    ensures s.Start? <==> marker.Some? && Strip(marker.value, Whitespace) == "True"
    ensures s.Refuse? ==> s.message == NotBuiltMessage && s.status == 1
  {
    if IsBuilt(marker) then Start else Refuse(NotBuiltMessage, 1)
  }

  /** Start-up proceeds exactly when the marker file is readable and holds
      `True` with nothing but whitespace around it; otherwise the shell
      refuses with the not-built message and exit status 1. */
  lemma {:induction false} BootIffPadded(marker: Option<string>)
    ensures Boot(marker).Start? <==>
            marker.Some? && exists a, b :: AllDropped(a, Whitespace) && AllDropped(b, Whitespace) && marker.value == a + "True" + b
    ensures !Boot(marker).Start? ==> Boot(marker) == Refuse(NotBuiltMessage, 1)
  {
    if marker.Some? {
      IsBuiltIffPadded(marker.value);
    }
  }
}

=== FILE: credentials.dfy ===
/** The credential file (`get_stored_passwords`) and the login decision built
    on it (`verify_password` and the `login` branch of `emulate`). The file is
    given as the lines `readlines` returns; a missing or unreadable file reads
    as no lines. The hash check itself is a parameter `verify`, applied as
    `verify(password, storedHash)`. */
module Credentials {
  import opened Wrappers
  import opened Text

  /** A stripped line holds a record when it contains `:`, does not start
      with `{` and does not end with `}`. */
  predicate IsRecord(l: string) {
    ':' in l && !(|l| > 0 && l[0] == '{') && !(|l| > 0 && l[|l| - 1] == '}')
  }

  const Semicolons := Chars({';'})

  /** One line: stripped, then kept only when it holds a record. */
  function ParseLine(line: string): (r: Option<(string, string)>)
    ensures r.Some? <==> IsRecord(Strip(line, Whitespace))
    ensures r.Some? ==> ':' !in r.value.0
    ensures r.Some? ==> Trimmed(r.value.0, Whitespace) && Trimmed(r.value.1, Whitespace)
  {
    var l := Strip(line, Whitespace);
    if IsRecord(l) then Some(SplitRecord(l)) else None
  }

  /** A kept line: `;` stripped from both ends, split at the first `:`, both
      halves stripped. */
  function SplitRecord(l: string): (r: (string, string))
    requires ':' in l
    ensures ':' !in r.0
    ensures Trimmed(r.0, Whitespace) && Trimmed(r.1, Whitespace)
  {
    StripKeepsContent(l, Semicolons, ':');
    var content := Strip(l, Semicolons);
    var (user, hash) := SplitFirst(content, ':');
    StripKeepsContent(user, Whitespace, ':');
    (Strip(user, Whitespace), Strip(hash, Whitespace))
  }

  /** Where any kept line splits: once `;` is stripped from both of its ends
      the line reads `u:h` with no `:` in `u`, and the record is `u` and `h`,
      each stripped of whitespace. Stripping `;` removes only a margin of
      `;` at each end (`Text.StripMargins`), so `;;alice: h;;` gives the user
      `alice`. */
  lemma {:induction false} SplitRecordAt(l: string, u: string, h: string)
    requires ':' !in u && Strip(l, Semicolons) == u + ":" + h
    ensures ':' in l
    ensures SplitRecord(l) == (Strip(u, Whitespace), Strip(h, Whitespace))
  {
    var a, b := StripMargins(l, Semicolons);
    var content := u + ":" + h;
    assert content[|u|] == ':';
    assert l[|a| + |u|] == ':' by {
      assert l == a + content + b;
      assert (a + content + b)[|a| + |u|] == content[|u|];
    }
    assert content == u + [':'] + h;
    SplitFirstOfJoined(u, ':', h);
  }

  /** The `;` margins of a kept line are removed on both sides, whatever
      their length. */
  lemma {:induction false} SemicolonMargins(user: string, hash: string, n: nat, m: nat)
    requires ':' !in user && |user| > 0 && |hash| > 0 && user[0] != ';' && hash[|hash| - 1] != ';'
    ensures var l := seq(n, _ => ';') + user + ":" + hash + seq(m, _ => ';');
            ':' in l && SplitRecord(l) == (Strip(user, Whitespace), Strip(hash, Whitespace))
  {
    var pre: string := seq(n, _ => ';');
    var post: string := seq(m, _ => ';');
    var body := user + ":" + hash;
    assert body[0] == user[0] && body[|body| - 1] == hash[|hash| - 1];
    assert AllDropped(pre, Semicolons) && AllDropped(post, Semicolons);
    assert pre + body + post == pre + user + ":" + hash + post;
    StripOfPadded(pre, body, post, Semicolons);
    SplitRecordAt(pre + body + post, user, hash);
  }

  /** The record format `user: hash;` reads back as the pair it was written
      from, for any user name without `:` and any hash, as long as neither
      has surrounding whitespace, the user name does not start with `{` or
      `;` and the hash does not end with `;`. */
  lemma {:induction false} ParseRecord(user: string, hash: string)
    requires |user| > 0 && |hash| > 0 && ':' !in user
    requires !IsSpace(user[0]) && user[0] != ';' && user[0] != '{' && !IsSpace(user[|user| - 1])
    requires !IsSpace(hash[0]) && !IsSpace(hash[|hash| - 1]) && hash[|hash| - 1] != ';'
    ensures ParseLine(user + ": " + hash + ";") == Some((user, hash))
  {
    var body := user + ": " + hash;
    var line := body + ";";
    RecordLineStrip(user, hash);
    RecordBodyStrip(user, hash);
    RecordSplit(user, hash);
    RecordHalvesStrip(user, hash);
  }

  lemma {:induction false} RecordLineStrip(user: string, hash: string)
    requires |user| > 0 && |hash| > 0 && ':' !in user
    requires !IsSpace(user[0]) && user[0] != '{' && hash[|hash| - 1] != ';'
    ensures Strip(user + ": " + hash + ";", Whitespace) == user + ": " + hash + ";"
    ensures IsRecord(user + ": " + hash + ";")
  {
    var line := user + ": " + hash + ";";
    assert line[0] == user[0] && line[|user|] == ':' && line[|line| - 1] == ';';
    assert !IsSpace(';');
    assert "" + line + "" == line;
    StripOfPadded("", line, "", Whitespace);
  }

  lemma {:induction false} RecordBodyStrip(user: string, hash: string)
    requires |user| > 0 && |hash| > 0
    requires user[0] != ';' && hash[|hash| - 1] != ';'
    ensures Strip(user + ": " + hash + ";", Semicolons) == user + ": " + hash
  {
    var body := user + ": " + hash;
    assert body[0] == user[0] && body[|body| - 1] == hash[|hash| - 1];
    assert "" + body + ";" == user + ": " + hash + ";";
    StripOfPadded("", body, ";", Semicolons);
  }

  lemma {:induction false} RecordHalvesStrip(user: string, hash: string)
    requires |user| > 0 && |hash| > 0
    requires !IsSpace(user[0]) && !IsSpace(user[|user| - 1])
    requires !IsSpace(hash[0]) && !IsSpace(hash[|hash| - 1])
    ensures Strip(user, Whitespace) == user
    ensures Strip(" " + hash, Whitespace) == hash
  {
    assert "" + user + "" == user;
    StripOfPadded("", user, "", Whitespace);
    StripLeadingSpace(hash);
  }

  lemma {:induction false} StripLeadingSpace(t: string)
    requires |t| > 0 && Trimmed(t, Whitespace)
    ensures Strip(" " + t, Whitespace) == t
  {
    var sp := " ";
    assert sp[0] == ' ';
    assert AllDropped(sp, Whitespace);
    assert sp + t + "" == " " + t;
    StripOfPadded(sp, t, "", Whitespace);
  }

  lemma {:induction false} RecordSplit(user: string, hash: string)
    requires ':' !in user
    ensures ':' in user + ": " + hash
    ensures SplitFirst(user + ": " + hash, ':') == (user, " " + hash)
  {
    assert user + ": " + hash == user + [':'] + (" " + hash);
    SplitFirstOfJoined(user, ':', " " + hash);
  }

  /** Each line of the file read on its own. */
  function Records(lines: seq<string>): (rs: seq<Option<(string, string)>>)
    ensures |rs| == |lines| && forall i :: 0 <= i < |lines| ==> rs[i] == ParseLine(lines[i])
  {
    seq(|lines|, i requires 0 <= i < |lines| => ParseLine(lines[i]))
  }

  /** The records in file order folded into a table, a later record for the
      same user replacing an earlier one. */
  function Collect(rs: seq<Option<(string, string)>>): (m: map<string, string>)
    ensures forall u :: u in m ==> exists i :: 0 <= i < |rs| && rs[i].Some? && rs[i].value.0 == u
    decreases |rs|
  {
    if |rs| == 0 then map[]
    else
      var m := Collect(rs[..|rs| - 1]);
      assert forall i :: 0 <= i < |rs| - 1 ==> rs[..|rs| - 1][i] == rs[i];
      match rs[|rs| - 1]
      case Some((user, hash)) => m[user := hash]
      case None => m
  }

  /** `get_stored_passwords`: every user in the table has a name without `:`. */
  function Parse(lines: seq<string>): (m: map<string, string>)
    ensures forall u :: u in m ==> ':' !in u
  {
    Collect(Records(lines))
  }

  /** Entry `i` is a record for `user`. */
  predicate RecordFor(rs: seq<Option<(string, string)>>, i: int, user: string)
    requires 0 <= i < |rs|
  {
    rs[i].Some? && rs[i].value.0 == user
  }

  /** Entry `i` is the last record for `user`. */
  predicate LastRecordFor(rs: seq<Option<(string, string)>>, i: int, user: string) {
    && 0 <= i < |rs| && RecordFor(rs, i, user)
    && forall j :: i < j < |rs| ==> !RecordFor(rs, j, user)
  }

  /** A user is in the table exactly when some entry is a record for it. */
  lemma {:induction false} CollectHasUser(rs: seq<Option<(string, string)>>, user: string)
    ensures user in Collect(rs) <==> exists i :: 0 <= i < |rs| && RecordFor(rs, i, user)
    decreases |rs|
  {
    if |rs| > 0 {
      var init := rs[..|rs| - 1];
      CollectHasUser(init, user);
      assert forall i :: 0 <= i < |init| ==> init[i] == rs[i];
      assert forall i :: 0 <= i < |init| ==> (RecordFor(init, i, user) <==> RecordFor(rs, i, user));
      if RecordFor(rs, |rs| - 1, user) {
        assert user in Collect(rs);
      } else {
        assert user in Collect(rs) <==> user in Collect(init);
      }
    }
  }

  /** The last record wins: the hash stored for a user is the one on the last
      entry that is a record for that user. */
  lemma {:induction false} CollectLastWins(rs: seq<Option<(string, string)>>, i: int, user: string)
    requires LastRecordFor(rs, i, user)
    ensures user in Collect(rs)
    ensures Collect(rs)[user] == rs[i].value.1
    decreases |rs|
  {
    var init := rs[..|rs| - 1];
    var last := |rs| - 1;
    if i < last {
      assert !RecordFor(rs, last, user);
      assert forall j :: 0 <= j < |init| ==> init[j] == rs[j];
      assert LastRecordFor(init, i, user) by {
        assert forall j :: i < j < |init| ==> (RecordFor(init, j, user) <==> RecordFor(rs, j, user));
      }
      CollectLastWins(init, i, user);
    }
  }

  /** For the file: a user has a stored hash exactly when some line is a
      record for it. */
  lemma {:induction false} ParseHasUser(lines: seq<string>, user: string)
    ensures user in Parse(lines) <==> exists i :: 0 <= i < |lines| && RecordFor(Records(lines), i, user)
  {
    CollectHasUser(Records(lines), user);
  }

  /** For the file: the hash stored for a user is the one on the last line
      that is a record for it. */
  lemma {:induction false} ParseLastWins(lines: seq<string>, i: int, user: string)
    requires LastRecordFor(Records(lines), i, user)
    ensures user in Parse(lines)
    ensures Parse(lines)[user] == ParseLine(lines[i]).value.1
  {
    CollectLastWins(Records(lines), i, user);
  }

  function LoginSuccess(user: string): string {
    "Login successful for user: " + user
  }

  const LoginFailed := "Login failed: Incorrect username or password."

  /** `verify_password` followed by the `login` messages: an unknown user is
      reported, then the login fails; a known user logs in exactly when the
      hash check accepts the password against the stored hash. */
  function LoginMessages(stored: map<string, string>, user: string, password: string,
                         verify: (string, string) -> bool): (out: seq<string>)
    ensures |out| > 0
    ensures (LoginSuccess(user) in out) <==> (user in stored && verify(password, stored[user]))
    ensures out[|out| - 1] == LoginSuccess(user) || out[|out| - 1] == LoginFailed
    ensures user !in stored ==> out[0] == "User '" + user + "' not found."
    ensures ("User '" + user + "' not found." in out) <==> user !in stored
    ensures user in stored <==> |out| == 1
  {
    assert LoginSuccess(user)[6] != LoginFailed[6];
    assert LoginSuccess(user)[0] != ("User '" + user + "' not found.")[0];
    if user !in stored then
      ["User '" + user + "' not found.", LoginFailed]
    else if verify(password, stored[user]) then
      [LoginSuccess(user)]
    else
      [LoginFailed]
  }
}

=== FILE: dispatcher.dfy ===
/** Command dispatch (`emulate` after tokenization): the first token names the
    command and the rest are its arguments. Built-in names are checked first,
    each with its own argument-count policy; only a name that is no built-in
    is looked up in the package table, and a name found in neither is
    reported as unknown. The effects of the built-ins (file system, password
    check, package install, printing) are described, not performed: dispatch
    yields the `Action` the interpreter then carries out. */
module Dispatcher {
  import opened Wrappers
  import Variables
  import Echo

  datatype Builtin =
    | Login | Let | Vars | Lc | Cd | About | Show | ReadFile | MkFile | RmFile
    | MkDir | EchoCmd | RmDir | Gum | Pwd

  /** The command word of each built-in. */
  function Name(b: Builtin): string {
    match b
    case Login => "login"
    case Let => "let"
    case Vars => "vars"
    case Lc => "lc"
    case Cd => "cd"
    case About => "about"
    case Show => "show"
    case ReadFile => "readfile"
    case MkFile => "mkfile"
    case RmFile => "rmfile"
    case MkDir => "mkdir"
    case EchoCmd => "echo"
    case RmDir => "rmdir"
    case Gum => "gum"
    case Pwd => "pwd"
  }

  /** The built-in a command word names, checked in the order of the source's
      `if`/`elif` chain. */
  function BuiltinNamed(cmd: string): (b: Option<Builtin>)
    ensures b.Some? ==> Name(b.value) == cmd
    ensures b.None? ==> forall c :: Name(c) != cmd
  {
    if cmd == "login" then Some(Login)
    else if cmd == "let" then Some(Let)
    else if cmd == "vars" then Some(Vars)
    else if cmd == "lc" then Some(Lc)
    else if cmd == "cd" then Some(Cd)
    else if cmd == "about" then Some(About)
    else if cmd == "show" then Some(Show)
    else if cmd == "readfile" then Some(ReadFile)
    else if cmd == "mkfile" then Some(MkFile)
    else if cmd == "rmfile" then Some(RmFile)
    else if cmd == "mkdir" then Some(MkDir)
    else if cmd == "echo" then Some(EchoCmd)
    else if cmd == "rmdir" then Some(RmDir)
    else if cmd == "gum" then Some(Gum)
    else if cmd == "pwd" then Some(Pwd)
    else None
  }

  /** Each built-in's command word names it. */
  lemma {:induction false} BuiltinNamedName(b: Builtin)
    ensures BuiltinNamed(Name(b)) == Some(b)
  {
    match b
    case Login =>
    case Let =>
    case Vars =>
    case Lc =>
    case Cd =>
    case About =>
    case Show =>
    case ReadFile =>
    case MkFile =>
    case RmFile =>
    case MkDir =>
    case EchoCmd =>
    case RmDir =>
    case Gum =>
    case Pwd =>
  }

  /** The usage line each arity-checked built-in prints on a wrong argument list. */
  function Usage(b: Builtin): string {
    match b
    case Login => "Usage: login <username> <password>"
    case Let => Variables.LetUsage
    case Lc => "Usage: lc [directory]"
    case Cd => "Usage: cd <directory>"
    case Show => "Usage: show <c|w>"
    case ReadFile => "Usage: readfile <filepath>"
    case MkFile => "Usage: mkfile <filepath> [content]"
    case RmFile => "Usage: rmfile <filepath>"
    case MkDir => "Usage: mkdir <directory_path>"
    case RmDir => "Usage: rmdir <directory_path>"
    case Gum => "Usage: gum <package_url>"
    case Vars | About | EchoCmd | Pwd => ""  // these accept any argument list
  }

  /** The argument lists each built-in accepts: `login` two, `lc` none or
      one, `mkfile` one or two, `show` one that is `c` or `w`, `let` one that
      contains `=`; `vars`, `about`, `echo` and `pwd` take anything; every
      other built-in exactly one. */
  predicate Accepts(b: Builtin, args: seq<string>) {
    match b
    case Login => |args| == 2
    case Let => |args| == 1 && '=' in args[0]
    case Lc => |args| <= 1
    case Show => |args| == 1 && (args[0] == "c" || args[0] == "w")
    case MkFile => 1 <= |args| <= 2
    case Vars | About | EchoCmd | Pwd => true
    case Cd | ReadFile | RmFile | MkDir | RmDir | Gum => |args| == 1
  }

  /** What one line asks the interpreter to do. */
  datatype Action<H> =
    | NoOp
    | PrintUsage(usage: string)
    | CheckLogin(user: string, password: string)
    | AssignVariable(name: string, value: string)
    | ListVariables
      // `None` lists the current working directory
    | ListDirectory(listed: Option<string>)
    | ChangeDirectory(dir: string)
    | PrintAbout
      // `copying` is `show c`; otherwise `show w`, the warranty disclaimer
    | PrintLicense(copying: bool)
    | PrintFile(path: string)
    | CreateFile(path: string, content: string)
    | DeleteFile(path: string)
    | CreateDirectory(path: string)
    | PrintText(text: string)
    | DeleteDirectory(path: string)
    | InstallPackage(url: string)
    | PrintWorkingDirectory
    | CallPackage(handler: H, args: seq<string>)
    | UnknownCommand(command: string)

  /** The built-in whose branch yields actions of this kind. */
  function Owner<H>(a: Action<H>): Option<Builtin> {
    match a
    case CheckLogin(_, _) => Some(Login)
    case AssignVariable(_, _) => Some(Let)
    case ListVariables => Some(Vars)
    case ListDirectory(_) => Some(Lc)
    case ChangeDirectory(_) => Some(Cd)
    case PrintAbout => Some(About)
    case PrintLicense(_) => Some(Show)
    case PrintFile(_) => Some(ReadFile)
    case CreateFile(_, _) => Some(MkFile)
    case DeleteFile(_) => Some(RmFile)
    case CreateDirectory(_) => Some(MkDir)
    case PrintText(_) => Some(EchoCmd)
    case DeleteDirectory(_) => Some(RmDir)
    case InstallPackage(_) => Some(Gum)
    case PrintWorkingDirectory => Some(Pwd)
    case _ => None
  }

  /** The action holds what the command line gave it: the argument list can
      be read back from the action, in order. */
  predicate Carries<H>(a: Action<H>, args: seq<string>) {
    match a
    case CheckLogin(user, password) => args == [user, password]
    case AssignVariable(n, v) => Variables.ParseLet(args) == Some(Variables.Binding(n, v))
    case ListDirectory(listed) => args == if listed.Some? then [listed.value] else []
    case ChangeDirectory(dir) => args == [dir]
    case PrintLicense(copying) => args == [if copying then "c" else "w"]
    case PrintFile(path) => args == [path]
    case CreateFile(path, content) => args == [path, content] || (args == [path] && content == "")
    case DeleteFile(path) => args == [path]
    case CreateDirectory(path) => args == [path]
    case PrintText(text) => text == Echo.EchoText(args)
    case DeleteDirectory(path) => args == [path]
    case InstallPackage(url) => args == [url]
    case _ => true
  }

  /** One built-in applied to its arguments. The arity policy: a built-in
      prints its usage line, and does nothing else, exactly when its argument
      list is not one it accepts; it never calls a package or reports an
      unknown command. An accepted argument list yields an action of that
      built-in's own kind, carrying exactly those arguments. */
  function RunBuiltin<H>(b: Builtin, args: seq<string>): (a: Action<H>)
    ensures a.PrintUsage? <==> !Accepts(b, args)
    ensures a.PrintUsage? ==> a.usage == Usage(b)
    ensures !a.NoOp? && !a.CallPackage? && !a.UnknownCommand?
    ensures !a.PrintUsage? ==> Owner(a) == Some(b) && Carries(a, args)
  {
    match b
    case Login => if |args| == 2 then CheckLogin(args[0], args[1]) else PrintUsage(Usage(b))
    case Let =>
      (match Variables.ParseLet(args)
       case Some(binding) => AssignVariable(binding.name, binding.value)
       case None => PrintUsage(Usage(b)))
    case Vars => ListVariables
    case Lc =>
      if |args| == 0 then ListDirectory(None)
      else if |args| == 1 then ListDirectory(Some(args[0]))
      else PrintUsage(Usage(b))
    case Cd => if |args| == 1 then ChangeDirectory(args[0]) else PrintUsage(Usage(b))
    case About => PrintAbout
    case Show =>
      if |args| == 1 then
        if args[0] == "c" then PrintLicense(true)
        else if args[0] == "w" then PrintLicense(false)
        else PrintUsage(Usage(b))
      else PrintUsage(Usage(b))
    case ReadFile => if |args| == 1 then PrintFile(args[0]) else PrintUsage(Usage(b))
    case MkFile =>
      if |args| == 1 then CreateFile(args[0], "")
      else if |args| == 2 then CreateFile(args[0], args[1])
      else PrintUsage(Usage(b))
    case RmFile => if |args| == 1 then DeleteFile(args[0]) else PrintUsage(Usage(b))
    case MkDir => if |args| == 1 then CreateDirectory(args[0]) else PrintUsage(Usage(b))
    case EchoCmd => PrintText(Echo.EchoText(args))
    case RmDir => if |args| == 1 then DeleteDirectory(args[0]) else PrintUsage(Usage(b))
    case Gum => if |args| == 1 then InstallPackage(args[0]) else PrintUsage(Usage(b))
    case Pwd => PrintWorkingDirectory
  }

  /** The decision for one tokenized line. */
  function Dispatch<H>(tokens: seq<string>, packages: map<string, H>): (a: Action<H>)
    ensures a.NoOp? <==> |tokens| == 0
    ensures a.CallPackage? <==> |tokens| > 0 && BuiltinNamed(tokens[0]).None? && tokens[0] in packages
    ensures a.CallPackage? ==> a.handler == packages[tokens[0]] && a.args == tokens[1..]
    ensures a.UnknownCommand? <==> |tokens| > 0 && BuiltinNamed(tokens[0]).None? && tokens[0] !in packages
    ensures a.UnknownCommand? ==> a.command == tokens[0]
    ensures |tokens| > 0 && BuiltinNamed(tokens[0]).Some? ==> a == RunBuiltin(BuiltinNamed(tokens[0]).value, tokens[1..])
  {
    if |tokens| == 0 then NoOp
    else
      var command, args := tokens[0], tokens[1..];
      match BuiltinNamed(command)
      case Some(b) => RunBuiltin(b, args)
      case None => if command in packages then CallPackage(packages[command], args) else UnknownCommand(command)
  }

  /** The message printed for a command that is neither built in nor registered. */
  function UnknownMessage(command: string): string {
    "Unknown command: " + command
  }
}

=== FILE: echo.dfy ===
/** The text `echo` prints. With a leading `-e`, each remaining argument goes
    through five literal replacements, applied one after the other in a fixed
    order: `\e` to ESC, `\n` to newline, `\t` to tab, `\r` to carriage return,
    and finally `\\` to a single backslash. The arguments are then joined with
    single spaces. */
module Echo {
  import opened Text

  const Backslash: char := '\\'

  /** The five replacements, in the order they are applied. */
  const Escapes: seq<(string, string)> := [
    ("\\e", "\U{1B}"),
    ("\\n", "\n"),
    ("\\t", "\t"),
    ("\\r", "\r"),
    ("\\\\", "\\")
  ]

  /** The replacements from `Escapes[i..]` applied in order. */
  function ApplyFrom(arg: string, i: nat): (r: string)
    requires i <= |Escapes|
    ensures |r| <= |arg|
    decreases |Escapes| - i
  {
    if i == |Escapes| then arg
    else ApplyFrom(ReplaceAll(arg, Escapes[i].0, Escapes[i].1), i + 1)
  }

  /** One `echo -e` argument after all five replacements; never longer than
      the argument. */
  function Unescape(arg: string): (r: string)
    ensures |r| <= |arg|
  {
    ApplyFrom(arg, 0)
  }

  /** `echo`: the arguments joined by single spaces, after unescaping when the
      first one is `-e` (which is then not printed). */
  function EchoText(args: seq<string>): (r: string)
    ensures |args| == 0 || args == ["-e"] ==> r == ""
    ensures |args| == 1 && args[0] != "-e" ==> r == args[0]
  {
    if |args| > 0 && args[0] == "-e" then
      Join(seq(|args| - 1, i requires 0 <= i < |args| - 1 => Unescape(args[i + 1])), " ")
    else Join(args, " ")
  }

  /** Without `-e`, one more argument is printed after the others and a
      single space, as it was typed. */
  lemma {:induction false} EchoAppend(args: seq<string>, y: string)
    requires |args| > 0 && args[0] != "-e"
    ensures EchoText(args + [y]) == EchoText(args) + " " + y
  {
    assert (args + [y])[0] == args[0];
    JoinAppend(args, y, " ");
  }

  /** With `-e`, one more argument is printed after the others and a single
      space, unescaped. */
  lemma {:induction false} EchoFlagAppend(args: seq<string>, y: string)
    requires |args| > 0
    ensures EchoText(["-e"] + args + [y]) == EchoText(["-e"] + args) + " " + Unescape(y)
  {
    var xs := ["-e"] + args;
    var ys := xs + [y];
    var ux := seq(|xs| - 1, i requires 0 <= i < |xs| - 1 => Unescape(xs[i + 1]));
    var uy := seq(|ys| - 1, i requires 0 <= i < |ys| - 1 => Unescape(ys[i + 1]));
    assert ys == ["-e"] + args + [y];
    assert uy == ux + [Unescape(y)];
    JoinAppend(ux, Unescape(y), " ");
  }

  /** Every replacement pattern starts with a backslash. */
  lemma {:induction false} NoBackslashNoPattern(arg: string, p: string)
    requires Backslash !in arg
    requires |p| > 0 && p[0] == Backslash
    ensures !Occurs(arg, p)
  {
    forall i | 0 <= i <= |arg|
      ensures !StartsWith(arg[i..], p)
    {
      if i < |arg| {
        assert arg[i..][0] == arg[i];
      }
    }
  }

  /** Arguments without a backslash are printed unchanged. */
  lemma {:induction false} UnescapePlain(arg: string)
    requires Backslash !in arg
    ensures Unescape(arg) == arg
  {
    forall i | 0 <= i <= |Escapes|
      ensures ApplyFrom(arg, i) == arg
    {
      ApplyFromPlain(arg, i);
    }
  }

  lemma {:induction false} ApplyFromPlain(arg: string, i: nat)
    requires Backslash !in arg
    requires i <= |Escapes|
    ensures ApplyFrom(arg, i) == arg
    decreases |Escapes| - i
  {
    if i < |Escapes| {
      NoBackslashNoPattern(arg, Escapes[i].0);
      ReplaceAllAbsent(arg, Escapes[i].0, Escapes[i].1);
      ApplyFromPlain(arg, i + 1);
    }
  }

  /** `echo -e` on arguments without backslashes prints them joined by single
      spaces, exactly as plain `echo` would. */
  lemma {:induction false} EchoFlagOnPlainArgs(args: seq<string>)
    requires forall i :: 0 <= i < |args| ==> Backslash !in args[i]
    ensures EchoText(["-e"] + args) == Join(args, " ")
  {
    var xs := ["-e"] + args;
    var un := seq(|xs| - 1, i requires 0 <= i < |xs| - 1 => Unescape(xs[i + 1]));
    forall i | 0 <= i < |args| ensures un[i] == args[i] {
      UnescapePlain(args[i]);
    }
    assert un == args;
  }

  /** The stages from `j` up to `i` leave a string alone when it is at most
      two characters long and none of those stages' patterns. */
  lemma {:induction false} ApplyFromSkip(arg: string, j: nat, i: nat)
    requires j <= i <= |Escapes| && |arg| <= 2
    requires forall k :: j <= k < i ==> arg != Escapes[k].0
    ensures ApplyFrom(arg, j) == ApplyFrom(arg, i)
    decreases i - j
  {
    if j < i {
      ReplaceAllShort(arg, Escapes[j].0, Escapes[j].1);
      ApplyFromSkip(arg, j + 1, i);
    }
  }

  /** Each of the five escapes, on its own, becomes its replacement. */
  lemma {:induction false} UnescapeSingle(i: nat)
    requires i < |Escapes|
    ensures Unescape(Escapes[i].0) == Escapes[i].1
  {
    var (pat, rep) := Escapes[i];
    ApplyFromSkip(pat, 0, i);
    ReplaceAllWhole(pat, rep);
    ApplyFromSkip(rep, i + 1, |Escapes|);
  }

  /** Because the replacements run in sequence, an escaped backslash followed
      by `n` is not read as a literal backslash and `n`: the `\n` pass runs
      before the `\\` pass and pairs the second backslash with the `n`. */
  lemma {:induction false} EscapedBackslashBeforeN()
    ensures Unescape("\\\\n") == "\\\n"
  {
    var s := "\\\\n";
    var t := "\\\n";
    assert s[1..] == "\\n";
    assert s[..2] == "\\\\" && s[..2][1] != "\\e"[1] && s[..2][1] != "\\n"[1];
    assert !StartsWith(s, "\\e") && !StartsWith(s, "\\n");
    ReplaceAllShort(s[1..], "\\e", "\U{1B}");
    assert ReplaceAll(s, "\\e", "\U{1B}") == s;
    ReplaceAllWhole("\\n", "\n");
    assert ReplaceAll(s, "\\n", "\n") == t;
    ApplyFromSkip(t, 2, |Escapes|);
  }
}

=== FILE: expander.dfy ===
/** Variable expansion (`expand_variables`): every `@(name)` in a line, where
    `name` is one or more word characters, is replaced in one left-to-right
    pass by the variable's value, or by nothing and a warning when the
    variable is not set. Word characters are the ASCII letters, digits and
    `_`; Python's `\w` also admits other Unicode letters and digits. */
module Expander {
  import opened Wrappers
  import opened Text

  /** A character matched by the `\w` of the reference pattern. */
  predicate IsWordChar(c: char) {
    ('a' <= c <= 'z') || ('A' <= c <= 'Z') || ('0' <= c <= '9') || c == '_'
  }

  /** A possible variable name: one or more word characters. */
  predicate IsName(n: string) {
    |n| > 0 && forall i :: 0 <= i < |n| ==> IsWordChar(n[i])
  }

  /** The written form of a reference to variable `n`. */
  function Reference(n: string): string {
    "@(" + n + ")"
  }

  /** Length of the longest run of word characters at the start of `s`. */
  function WordRun(s: string): (k: nat)
    ensures k <= |s|
    ensures forall i :: 0 <= i < k ==> IsWordChar(s[i])
    ensures k < |s| ==> !IsWordChar(s[k])
  {
    if |s| > 0 && IsWordChar(s[0]) then 1 + WordRun(s[1..]) else 0
  }

  /** The name of the reference `s` begins with, if it begins with one
      (the `re.sub` pattern `@\((\w+)\)` anchored at the front of `s`). */
  function ReferenceAt(s: string): (r: Option<string>)
    ensures r.Some? ==> IsName(r.value) && StartsWith(s, Reference(r.value))
  {
    if |s| >= 2 && s[0] == '@' && s[1] == '(' then
      var k := WordRun(s[2..]);
      if 0 < k && 2 + k < |s| && s[2 + k] == ')' then
        var n := s[2..2 + k];
        assert s[..|Reference(n)|] == Reference(n);
        Some(n)
      else None
    else None
  }

  /** The pattern matches every written reference, and reads its whole name:
      since `)` is not a word character, the greedy `\w+` stops exactly there. */
  lemma {:induction false} ReferenceAtFinds(s: string, n: string)
    requires IsName(n) && StartsWith(s, Reference(n))
    ensures ReferenceAt(s) == Some(n)
  {
    assert s[..|Reference(n)|] == Reference(n);
    assert s[0] == '@' && s[1] == '(';
    var t := s[2..];
    assert forall i :: 0 <= i < |n| ==> t[i] == n[i];
    assert t[|n|] == ')';
    assert !IsWordChar(t[|n|]);
    var k := WordRun(t);
    assert k == |n|;
    assert s[2..2 + k] == n;
  }

  /** `s` contains no reference at any position. */
  predicate NoReference(s: string) {
    forall i :: 0 <= i <= |s| ==> ReferenceAt(s[i..]).None?
  }

  /** The expanded text and, in order, the names that were not set (one
      warning each). */
  datatype Expansion = Expansion(text: string, missing: seq<string>) {
    function Then(e: Expansion): Expansion {
      Expansion(text + e.text, missing + e.missing)
    }
  }

  /** The warning printed for an undefined variable. */
  function MissingWarning(n: string): string {
    "Warning: Variable '" + n + "' not found. Replacing with empty string."
  }

  /** The replacement for one reference: the value, or nothing and a warning. */
  function Substitute(vars: map<string, string>, n: string): (e: Expansion)
    ensures n in vars ==> e == Expansion(vars[n], [])
    ensures n !in vars ==> e == Expansion("", [n])
  {
    if n in vars then Expansion(vars[n], []) else Expansion("", [n])
  }

  /** `expand_variables`: every warning names an unset variable, and each one
      consumed at least the four characters of a reference. */
  function Expand(vars: map<string, string>, s: string): (e: Expansion)
    ensures forall i :: 0 <= i < |e.missing| ==> IsName(e.missing[i]) && e.missing[i] !in vars
    ensures 4 * |e.missing| <= |s|
    decreases |s|
  {
    if |s| == 0 then Expansion("", [])
    else match ReferenceAt(s)
      case Some(n) => Substitute(vars, n).Then(Expand(vars, s[|n| + 3..]))
      case None => Expansion([s[0]], []).Then(Expand(vars, s[1..]))
  }

  /** A reference found in `a + b` starting at the front is found in `a`
      alone, when `b` begins with `@` (a reference never spans a `@` other
      than its first character). */
  lemma {:induction false} ReferenceAtPrefix(a: string, b: string)
    requires |a| > 0
    requires |b| == 0 || b[0] == '@'
    ensures ReferenceAt(a + b) == ReferenceAt(a)
  {
    var s := a + b;
    if ReferenceAt(s).Some? {
      var n := ReferenceAt(s).value;
      var r := Reference(n);
      assert s[..|r|] == r;
      assert forall j :: 1 <= j < |r| ==> r[j] != '@';
      assert forall j :: 1 <= j < |r| ==> s[j] != '@';
      assert |b| > 0 ==> s[|a|] == '@';
      assert a[..|r|] == r;
      ReferenceAtFinds(a, n);
    }
    if ReferenceAt(a).Some? {
      var m := ReferenceAt(a).value;
      assert a[..|Reference(m)|] == Reference(m);
      assert s[..|Reference(m)|] == Reference(m);
      ReferenceAtFinds(s, m);
    }
  }

  /** Expansion distributes over a split in front of a `@`: nothing in the
      first part can join with the second part into one reference. */
  lemma {:induction false} ExpandAppend(vars: map<string, string>, a: string, b: string)
    requires |b| == 0 || b[0] == '@'
    ensures Expand(vars, a + b) == Expand(vars, a).Then(Expand(vars, b))
    decreases |a|
  {
    if |a| == 0 {
      assert a + b == b;
    } else {
      ReferenceAtPrefix(a, b);
      var k := StepLength(a);
      assert StepLength(a + b) == k;
      assert (a + b)[..k] == a[..k];
      DropAppend(a, b, k);
      ExpandFirstStep(vars, a);
      ExpandFirstStep(vars, a + b);
      ExpandAppend(vars, a[k..], b);
      ThenAssociative(Expand(vars, a[..k]), Expand(vars, a[k..]), Expand(vars, b));
    }
  }

  /** The number of characters the first step of the scan consumes. */
  function StepLength(s: string): (k: nat)
    requires |s| > 0
    ensures 0 < k <= |s|
  {
    match ReferenceAt(s)
    case Some(n) => |n| + 3
    case None => 1
  }

  /** The scan splits after its first step. */
  lemma {:induction false} ExpandFirstStep(vars: map<string, string>, s: string)
    requires |s| > 0
    ensures Expand(vars, s) == Expand(vars, s[..StepLength(s)]).Then(Expand(vars, s[StepLength(s)..]))
  {
    if ReferenceAt(s).Some? {
      ExpandFirstStepReference(vars, s);
    } else {
      ExpandFirstStepPlain(vars, s);
    }
  }

  lemma {:induction false} ExpandFirstStepReference(vars: map<string, string>, s: string)
    requires |s| > 0 && ReferenceAt(s).Some?
    ensures Expand(vars, s) == Expand(vars, s[..StepLength(s)]).Then(Expand(vars, s[StepLength(s)..]))
  {
    var k := StepLength(s);
    var r := s[..k];
    assert r[k..] == "";
    var n := ReferenceAt(s).value;
    assert r[..|Reference(n)|] == Reference(n);
    ReferenceAtFinds(r, n);
    var e := Substitute(vars, n);
    assert Expand(vars, s) == e.Then(Expand(vars, s[k..]));
    assert Expand(vars, r) == e.Then(Expansion("", []));
    assert e.text + "" == e.text && e.missing + [] == e.missing;
  }

  lemma {:induction false} ExpandFirstStepPlain(vars: map<string, string>, s: string)
    requires |s| > 0 && ReferenceAt(s).None?
    ensures Expand(vars, s) == Expand(vars, s[..StepLength(s)]).Then(Expand(vars, s[StepLength(s)..]))
  {
    var r := s[..1];
    assert r[1..] == "";
    assert Expand(vars, r) == Expansion([s[0]], []).Then(Expansion("", []));
    assert Expand(vars, s) == Expansion([s[0]], []).Then(Expand(vars, s[1..]));
  }

  lemma {:induction false} DropAppend(a: string, b: string, k: nat)
    requires k <= |a|
    ensures (a + b)[k..] == a[k..] + b
  {
  }

  lemma {:induction false} ThenAssociative(x: Expansion, y: Expansion, z: Expansion)
    ensures x.Then(y).Then(z) == x.Then(y.Then(z))
  {
    assert x.text + y.text + z.text == x.text + (y.text + z.text);
    assert x.missing + y.missing + z.missing == x.missing + (y.missing + z.missing);
  }

  /** A line without references expands to itself, with no warnings. */
  lemma {:induction false} ExpandNoReference(vars: map<string, string>, s: string)
    requires NoReference(s)
    ensures Expand(vars, s) == Expansion(s, [])
    decreases |s|
  {
    if |s| > 0 {
      assert s[0..] == s;
      assert NoReference(s[1..]) by {
        forall i | 0 <= i <= |s[1..]|
          ensures ReferenceAt(s[1..][i..]).None?
        {
          assert s[1..][i..] == s[i + 1..];
        }
      }
      ExpandNoReference(vars, s[1..]);
    }
  }

  /** With no variables set, a line expands silently exactly when it holds no
      reference: every reference found costs a warning. */
  lemma {:induction false} SilentIffNoReference(s: string)
    ensures Expand(map[], s).missing == [] <==> NoReference(s)
    decreases |s|
  {
    if NoReference(s) {
      ExpandNoReference(map[], s);
    } else if |s| > 0 {
      match ReferenceAt(s)
      case Some(n) =>
      case None =>
        SilentIffNoReference(s[1..]);
        assert !NoReference(s[1..]) by {
          var i :| 0 <= i <= |s| && ReferenceAt(s[i..]).Some?;
          assert i != 0;
          assert s[1..][i - 1..] == s[i..];
        }
    }
  }

  /** One reference between reference-free text: a set variable is replaced
      by its value, which is inserted as it is and never scanned again; an
      unset one disappears with exactly one warning. */
  lemma {:induction false} ExpandOneReference(vars: map<string, string>, p: string, n: string, q: string)
    requires NoReference(p) && NoReference(q) && IsName(n)
    ensures n in vars ==> Expand(vars, p + Reference(n) + q) == Expansion(p + vars[n] + q, [])
    ensures n !in vars ==> Expand(vars, p + Reference(n) + q) == Expansion(p + q, [n])
  {
    var r := Reference(n) + q;
    Associate(p, Reference(n), q);
    ExpandAfterPlainText(vars, p, r);
    ExpandReferenceThenPlain(vars, n, q);
    var e := Substitute(vars, n);
    Associate(p, e.text, q);
    if n !in vars {
      assert e.text == "";
      assert e.text + q == q;
    }
  }

  lemma {:induction false} Associate(a: string, b: string, c: string)
    ensures a + b + c == a + (b + c)
  {
  }

  /** A reference followed by reference-free text. */
  lemma {:induction false} ExpandReferenceThenPlain(vars: map<string, string>, n: string, q: string)
    requires NoReference(q) && IsName(n)
    ensures Expand(vars, Reference(n) + q) == Expansion(Substitute(vars, n).text + q, Substitute(vars, n).missing)
  {
    ExpandLeadingReference(vars, n, q);
    ExpandNoReference(vars, q);
  }

  /** Reference-free text in front of a `@` passes through unchanged. */
  lemma {:induction false} ExpandAfterPlainText(vars: map<string, string>, p: string, r: string)
    requires NoReference(p)
    requires |r| == 0 || r[0] == '@'
    ensures Expand(vars, p + r) == Expansion(p + Expand(vars, r).text, Expand(vars, r).missing)
  {
    ExpandAppend(vars, p, r);
    ExpandNoReference(vars, p);
  }

  /** A line that starts with a reference: the substitution comes first and
      the scan resumes right after the closing parenthesis. */
  lemma {:induction false} ExpandLeadingReference(vars: map<string, string>, n: string, q: string)
    requires IsName(n)
    ensures Expand(vars, Reference(n) + q) == Substitute(vars, n).Then(Expand(vars, q))
  {
    var r := Reference(n) + q;
    assert r[..|Reference(n)|] == Reference(n);
    ReferenceAtFinds(r, n);
    assert r[|n| + 3..] == q;
  }

  /** Expansion is single-pass: a variable whose value is a reference to
      itself expands to that reference and stops. */
  lemma {:induction false} SelfReferenceStops(vars: map<string, string>, n: string)
    requires IsName(n)
    requires n in vars && vars[n] == Reference(n)
    ensures Expand(vars, Reference(n)) == Expansion(Reference(n), [])
  {
    assert NoReference("") by {
      assert ""[0..] == "";
    }
    assert "" + Reference(n) + "" == Reference(n);
    ExpandOneReference(vars, "", n, "");
  }
}

=== FILE: registry.dfy ===
/** The package-command table (`_package_commands`), its one update operation
    (`register_package_command`) and the start-up scan that lets each package
    register its commands (`load_package_commands`). Handlers are opaque
    values of a type parameter `H`. Importing a package and calling its
    `register_shell_commands` are reduced to what they do to the table: the
    registrations made, in order, and the exception raised, if any. */
module Registry {
  import opened Wrappers

  /** What `register_package_command` prints when a name is registered again. */
  function OverwriteWarning(name: string): string {
    "Warning: Command '" + name + "' from package is already registered. Overwriting."
  }

  datatype Registration<H> = Registration(table: map<string, H>, warning: Option<string>)

  /** `register_package_command`: insert or overwrite one key; warn exactly
      when the key was already there. */
  function Register<H>(t: map<string, H>, name: string, h: H): (r: Registration<H>)
    ensures r.table.Keys == t.Keys + {name}
    ensures name in r.table && r.table[name] == h
    ensures forall k :: k in t && k != name ==> r.table[k] == t[k]
    ensures r.warning.Some? <==> name in t
    ensures r.warning.Some? ==> r.warning.value == OverwriteWarning(name)
  {
    Registration(t[name := h], if name in t then Some(OverwriteWarning(name)) else None)
  }

  /** A table together with the diagnostics printed while building it. */
  datatype Batch<H> = Batch(table: map<string, H>, diagnostics: seq<string>)

  /** The names a sequence of registrations mentions. */
  function Names<H>(calls: seq<(string, H)>): set<string> {
    set i | 0 <= i < |calls| :: calls[i].0
  }

  /** Registrations applied one after another, with their warnings in order. */
  function RegisterAll<H>(t: map<string, H>, calls: seq<(string, H)>): (r: Batch<H>)
    ensures r.table.Keys == t.Keys + Names(calls)
    ensures |r.diagnostics| <= |calls|
    decreases |calls|
  {
    if |calls| == 0 then Batch(t, [])
    else
      var first := Register(t, calls[0].0, calls[0].1);
      var rest := RegisterAll(first.table, calls[1..]);
      assert Names(calls) == {calls[0].0} + Names(calls[1..]) by {
        forall n | n in Names(calls) ensures n in {calls[0].0} + Names(calls[1..]) {
          var i :| 0 <= i < |calls| && calls[i].0 == n;
          if i > 0 {
            assert calls[1..][i - 1].0 == n;
          }
        }
      }
      Batch(rest.table, (if first.warning.Some? then [first.warning.value] else []) + rest.diagnostics)
  }

  /** The last registration of a name decides its handler. */
  lemma {:induction false} RegisterAllLastWins<H>(t: map<string, H>, calls: seq<(string, H)>, i: nat)
    requires i < |calls|
    requires forall j :: i < j < |calls| ==> calls[j].0 != calls[i].0
    ensures calls[i].0 in RegisterAll(t, calls).table
    ensures RegisterAll(t, calls).table[calls[i].0] == calls[i].1
    decreases |calls|
  {
    var first := Register(t, calls[0].0, calls[0].1);
    if i == 0 {
      RegisterAllUntouched(first.table, calls[1..], calls[0].0);
    } else {
      RegisterAllLastWins(first.table, calls[1..], i - 1);
    }
  }

  /** A name no registration mentions keeps its handler, or stays absent. */
  lemma {:induction false} RegisterAllUntouched<H>(t: map<string, H>, calls: seq<(string, H)>, k: string)
    requires forall j :: 0 <= j < |calls| ==> calls[j].0 != k
    ensures k in RegisterAll(t, calls).table <==> k in t
    ensures k in t ==> RegisterAll(t, calls).table[k] == t[k]
    decreases |calls|
  {
    if |calls| > 0 {
      var first := Register(t, calls[0].0, calls[0].1);
      RegisterAllUntouched(first.table, calls[1..], k);
    }
  }

  /** Registering distinct names, none of them present yet, prints nothing. */
  lemma {:induction false} RegisterAllFreshIsSilent<H>(t: map<string, H>, calls: seq<(string, H)>)
    requires forall i :: 0 <= i < |calls| ==> calls[i].0 !in t
    requires forall i, j :: 0 <= i < j < |calls| ==> calls[i].0 != calls[j].0
    ensures RegisterAll(t, calls).diagnostics == []
    decreases |calls|
  {
    if |calls| > 0 {
      var first := Register(t, calls[0].0, calls[0].1);
      RegisterAllFreshIsSilent(first.table, calls[1..]);
    }
  }

  /** Registering a name a second time prints the overwrite warning. */
  lemma {:induction false} RegisterAllRepeatWarns<H>(t: map<string, H>, calls: seq<(string, H)>, i: nat, j: nat)
    requires i < j < |calls| && calls[i].0 == calls[j].0
    ensures OverwriteWarning(calls[j].0) in RegisterAll(t, calls).diagnostics
    decreases |calls|
  {
    var first := Register(t, calls[0].0, calls[0].1);
    var rest := RegisterAll(first.table, calls[1..]);
    if i == 0 {
      RegisterAllPresentWarns(first.table, calls[1..], j - 1);
    } else {
      RegisterAllRepeatWarns(first.table, calls[1..], i - 1, j - 1);
    }
  }

  /** Registering a name that is already in the table prints the warning. */
  lemma {:induction false} RegisterAllPresentWarns<H>(t: map<string, H>, calls: seq<(string, H)>, j: nat)
    requires j < |calls| && calls[j].0 in t
    ensures OverwriteWarning(calls[j].0) in RegisterAll(t, calls).diagnostics
    decreases |calls|
  {
    var first := Register(t, calls[0].0, calls[0].1);
    if j > 0 {
      RegisterAllPresentWarns(first.table, calls[1..], j - 1);
    }
  }

  /** Registering two batches one after the other is registering their
      concatenation. */
  lemma {:induction false} RegisterAllAppend<H>(t: map<string, H>, a: seq<(string, H)>, b: seq<(string, H)>)
    ensures RegisterAll(t, a + b).table == RegisterAll(RegisterAll(t, a).table, b).table
    decreases |a|
  {
    if |a| > 0 {
      var first := Register(t, a[0].0, a[0].1);
      assert (a + b)[1..] == a[1..] + b;
      RegisterAllAppend(first.table, a[1..], b);
    } else {
      assert a + b == b;
    }
  }

  /** What importing a package and running its registration hook amounts to. */
  datatype PackageLoad<H> =
    | ImportFails(error: string)
      // the module has no callable `register_shell_commands`
    | NoEntryPoint
      // the hook ran, made these registrations, then returned or raised
    | Registers(calls: seq<(string, H)>, raised: Option<string>)

  /** The diagnostic for a package whose import or hook raised. */
  function LoadError(package: string, error: string): string {
    "Error loading commands from package '" + package + "': " + error
  }

  /** One package: registrations made before a failure stay in the table. */
  function LoadPackage<H>(t: map<string, H>, package: string, load: PackageLoad<H>): (r: Batch<H>)
    ensures load.ImportFails? ==> r == Batch(t, [LoadError(package, load.error)])
    ensures load.NoEntryPoint? ==> r == Batch(t, [])
    ensures load.Registers? ==> r.table == RegisterAll(t, load.calls).table
    ensures load.Registers? && load.raised.Some? ==> LoadError(package, load.raised.value) in r.diagnostics
  {
    match load
    case ImportFails(e) => Batch(t, [LoadError(package, e)])
    case NoEntryPoint => Batch(t, [])
    case Registers(calls, raised) =>
      var b := RegisterAll(t, calls);
      Batch(b.table, b.diagnostics + if raised.Some? then [LoadError(package, raised.value)] else [])
  }

  /** The names two sequences of registrations mention, together. */
  lemma {:induction false} NamesAppend<H>(a: seq<(string, H)>, b: seq<(string, H)>)
    ensures Names(a + b) == Names(a) + Names(b)
  {
    forall n | n in Names(a + b) ensures n in Names(a) + Names(b) {
      var i :| 0 <= i < |a + b| && (a + b)[i].0 == n;
      if i >= |a| {
        assert b[i - |a|].0 == n;
      }
    }
    forall n | n in Names(a) + Names(b) ensures n in Names(a + b) {
      if n in Names(a) {
        var i :| 0 <= i < |a| && a[i].0 == n;
        assert (a + b)[i].0 == n;
      } else {
        var i :| 0 <= i < |b| && b[i].0 == n;
        assert (a + b)[|a| + i].0 == n;
      }
    }
  }

  /** The packages in scan order, each with what loading it does. The table
      ends up with exactly the names it had plus every name some package
      registered, whether or not that package failed afterwards. */
  function LoadPackages<H>(t: map<string, H>, packages: seq<(string, PackageLoad<H>)>): (r: Batch<H>)
    ensures r.table.Keys == t.Keys + Names(AllCalls(packages))
    decreases |packages|
  {
    if |packages| == 0 then Batch(t, [])
    else
      var first := LoadPackage(t, packages[0].0, packages[0].1);
      var rest := LoadPackages(first.table, packages[1..]);
      var own := if packages[0].1.Registers? then packages[0].1.calls else [];
      NamesAppend(own, AllCalls(packages[1..]));
      assert first.table.Keys == t.Keys + Names(own);
      Batch(rest.table, first.diagnostics + rest.diagnostics)
  }

  /** Every registration every package made, in scan order. */
  function AllCalls<H>(packages: seq<(string, PackageLoad<H>)>): seq<(string, H)>
    decreases |packages|
  {
    if |packages| == 0 then []
    else (if packages[0].1.Registers? then packages[0].1.calls else []) + AllCalls(packages[1..])
  }

  /** A failing package does not stop the others: the final table is exactly
      what all registrations made, in scan order, produce, whichever packages
      failed to import or raised in their hook. */
  lemma {:induction false} LoadIsolation<H>(t: map<string, H>, packages: seq<(string, PackageLoad<H>)>)
    ensures LoadPackages(t, packages).table == RegisterAll(t, AllCalls(packages)).table
    decreases |packages|
  {
    if |packages| > 0 {
      var first := LoadPackage(t, packages[0].0, packages[0].1);
      LoadIsolation(first.table, packages[1..]);
      var own := if packages[0].1.Registers? then packages[0].1.calls else [];
      RegisterAllAppend(t, own, AllCalls(packages[1..]));
    }
  }

  /** Every package that fails reports itself once it is reached. */
  lemma {:induction false} LoadReportsFailure<H>(t: map<string, H>, packages: seq<(string, PackageLoad<H>)>, i: nat)
    requires i < |packages| && packages[i].1.ImportFails?
    ensures LoadError(packages[i].0, packages[i].1.error) in LoadPackages(t, packages).diagnostics
    decreases |packages|
  {
    var first := LoadPackage(t, packages[0].0, packages[0].1);
    if i > 0 {
      LoadReportsFailure(first.table, packages[1..], i - 1);
    }
  }

  /** A package whose hook raises after it started reports the exception,
      once the scan reaches it. */
  lemma {:induction false} LoadReportsHookError<H>(t: map<string, H>, packages: seq<(string, PackageLoad<H>)>, i: nat)
    requires i < |packages| && packages[i].1.Registers? && packages[i].1.raised.Some?
    ensures LoadError(packages[i].0, packages[i].1.raised.value) in LoadPackages(t, packages).diagnostics
    decreases |packages|
  {
    var first := LoadPackage(t, packages[0].0, packages[0].1);
    if i > 0 {
      LoadReportsHookError(first.table, packages[1..], i - 1);
    }
  }

  /** One item of the package directory listing. */
  datatype DirEntry = DirEntry(name: string, isDir: bool, hasInit: bool)

  /** The packages the scan visits: directories holding an `__init__.py`, in
      listing order. */
  function Discover(entries: seq<DirEntry>): (names: seq<string>)
    ensures forall n :: n in names <==> exists i :: 0 <= i < |entries| && entries[i].isDir && entries[i].hasInit && entries[i].name == n
    decreases |entries|
  {
    if |entries| == 0 then []
    else
      var rest := Discover(entries[1..]);
      assert forall i :: 0 < i < |entries| ==> entries[i] == entries[1..][i - 1];
      if entries[0].isDir && entries[0].hasInit then [entries[0].name] + rest else rest
  }

  /** The scan keeps the listing's order and visits each qualifying entry
      once: an entry contributes its own name, or nothing, between what the
      entries before it and the entries after it contribute. */
  lemma {:induction false} DiscoverInOrder(a: seq<DirEntry>, e: DirEntry, b: seq<DirEntry>)
    ensures Discover(a + [e] + b) == Discover(a) + (if e.isDir && e.hasInit then [e.name] else []) + Discover(b)
    decreases |a|
  {
    var s := a + [e] + b;
    if |a| == 0 {
      assert s[0] == e && s[1..] == b;
    } else {
      assert s[0] == a[0] && s[1..] == a[1..] + [e] + b;
      DiscoverInOrder(a[1..], e, b);
    }
  }

  function RootMissingWarning(root: string): string {
    "Warning: Package root directory '" + root + "' not found. No external commands will be loaded."
  }

  /** The packages the scan visits, each with what loading it does. */
  function Visits<H>(entries: seq<DirEntry>, load: string -> PackageLoad<H>): (ps: seq<(string, PackageLoad<H>)>)
    ensures |ps| == |Discover(entries)|
    ensures forall i :: 0 <= i < |ps| ==> ps[i] == (Discover(entries)[i], load(Discover(entries)[i]))
  {
    var names := Discover(entries);
    seq(|names|, i requires 0 <= i < |names| => (names[i], load(names[i])))
  }

  /** `load_package_commands`: a missing package root warns and loads nothing;
      otherwise each discovered package is loaded as `load` says. */
  function LoadPackageCommands<H>(t: map<string, H>, root: string, listing: Option<seq<DirEntry>>,
                                  load: string -> PackageLoad<H>): (r: Batch<H>)
    ensures listing.None? ==> r == Batch(t, [RootMissingWarning(root)])
  {
    match listing
    case None => Batch(t, [RootMissingWarning(root)])
    case Some(entries) => LoadPackages(t, Visits(entries, load))
  }

  /** With a package root present, the command table after start-up is what
      every discovered package's registrations produce in scan order, however
      many packages failed. */
  lemma {:induction false} LoadPackageCommandsTable<H>(t: map<string, H>, root: string, entries: seq<DirEntry>,
                                    load: string -> PackageLoad<H>)
    ensures LoadPackageCommands(t, root, Some(entries), load).table
         == RegisterAll(t, AllCalls(Visits(entries, load))).table
  {
    LoadIsolation(t, Visits(entries, load));
  }
}

=== FILE: shell.dfy ===
/** One prompt line end to end (`emulate`) and the prompt loop around it.
    A line is expanded against the variable store, tokenized, and
    dispatched; only `let` changes the store. The tokenizer (`shlex.split`)
    is a parameter, as are the package table, the stored credentials and
    the hash check. Actions that act on the file system or the network are
    returned, not performed, and print nothing here. */
module Shell {
  import opened Wrappers
  import opened Text
  import Expander
  import Variables
  import Dispatcher
  import Echo
  import Credentials
  import Registry

  /** What the tokenizer makes of the expanded line. */
  datatype Lexed = Tokens(words: seq<string>) | LexFailure(error: string)

  /** Everything a line depends on besides the store. */
  datatype Env<H> = Env(
    packages: map<string, H>,
    passwords: map<string, string>,
    verify: (string, string) -> bool,
    tokenize: string -> Lexed)

  /** How handling a line ended: with an action, or with the tokenizer's
      exception, which the prompt loop reports. */
  datatype Outcome<H> = Acted(action: Dispatcher.Action<H>) | Failed(message: string)

  /** One line handled: the store afterwards, the warnings printed during
      expansion, the outcome, and the lines the outcome prints. */
  datatype Step<H> = Step(vars: Variables.Store, warnings: seq<string>, outcome: Outcome<H>, printed: seq<string>)

  /** The message the prompt loop prints for an exception out of `emulate`. */
  function UnexpectedError(error: string): string {
    "An unexpected error occurred: " + error
  }

  /** The lines an action prints, for the actions whose text does not come
      from the file system or a package. Usage errors, logins, assignments,
      listings, `echo` and unknown commands print; the rest print nothing
      here. A login prints the success line exactly when the user is stored
      and the password checks out; a listing shows every set variable with
      its current value. */
  function Report<H>(vars: Variables.Store, env: Env<H>, a: Dispatcher.Action<H>): (out: seq<string>)
    requires Variables.WellFormed(vars)
    ensures |out| > 0 <==>
              a.PrintUsage? || a.CheckLogin? || a.AssignVariable? || a.ListVariables? || a.PrintText? || a.UnknownCommand?
    ensures a.CheckLogin? ==>
              (Credentials.LoginSuccess(a.user) in out <==>
                 a.user in env.passwords && env.verify(a.password, env.passwords[a.user]))
    ensures a.ListVariables? ==>
              forall n :: n in Variables.AsMap(vars) ==>
                Variables.ListingLine(Variables.Binding(n, Variables.AsMap(vars)[n])) in out
    ensures a.UnknownCommand? ==> out == [Dispatcher.UnknownMessage(a.command)]
    ensures a.PrintText? ==> out == [a.text]
    ensures a.PrintUsage? ==> out == [a.usage]
  {
    match a
    case PrintUsage(u) => [u]
    case CheckLogin(user, password) => Credentials.LoginMessages(env.passwords, user, password, env.verify)
    case AssignVariable(n, v) => [Variables.SetMessage(n, v)]
    case ListVariables =>
      Variables.ListingShowsMap(vars);
      Variables.Listing(vars)
    case PrintText(t) => [t]
    case UnknownCommand(c) => [Dispatcher.UnknownMessage(c)]
    case _ => []
  }

  /** The warnings for the missing names, in the order they were met. */
  function Warnings(missing: seq<string>): (w: seq<string>)
    ensures |w| == |missing| && forall i :: 0 <= i < |missing| ==> w[i] == Expander.MissingWarning(missing[i])
  {
    seq(|missing|, i requires 0 <= i < |missing| => Expander.MissingWarning(missing[i]))
  }

  /** `emulate`: expand, tokenize, dispatch. The store changes only on a
      well-formed `let`, and then by exactly that assignment. */
  function Emulate<H>(vars: Variables.Store, env: Env<H>, line: string): (r: Step<H>)
    requires Variables.WellFormed(vars)
    ensures var t := env.tokenize(Expander.Expand(Variables.AsMap(vars), line).text);
            t.LexFailure? ==>
              r.vars == vars && r.outcome == Failed(UnexpectedError(t.error)) && r.printed == [UnexpectedError(t.error)]
    ensures Variables.WellFormed(r.vars)
    ensures var missing := Expander.Expand(Variables.AsMap(vars), line).missing;
            |r.warnings| == |missing| && forall i :: 0 <= i < |missing| ==> r.warnings[i] == Expander.MissingWarning(missing[i])
    ensures r.vars != vars ==> r.outcome.Acted? && r.outcome.action.AssignVariable?
    ensures r.outcome.Acted? && r.outcome.action.AssignVariable? ==>
              Variables.AsMap(r.vars) == Variables.AsMap(vars)[r.outcome.action.name := r.outcome.action.value]
  {
    var e := Expander.Expand(Variables.AsMap(vars), line);
    var warnings := Warnings(e.missing);
    match env.tokenize(e.text)
    case LexFailure(err) => Step(vars, warnings, Failed(UnexpectedError(err)), [UnexpectedError(err)])
    case Tokens(words) =>
      var a := Dispatcher.Dispatch(words, env.packages);
      if a.AssignVariable? then
        Variables.AssignAsMap(vars, a.name, a.value);
        Step(Variables.Assign(vars, a.name, a.value), warnings, Acted(a), Report(vars, env, a))
      else Step(vars, warnings, Acted(a), Report(vars, env, a))
  }

  /** A `let` line, once expanded and tokenized, leaves the store and prints
      exactly what the `let` command does with its arguments. */
  lemma {:induction false} ShellLet<H>(vars: Variables.Store, env: Env<H>, line: string, args: seq<string>)
    requires Variables.WellFormed(vars)
    requires env.tokenize(Expander.Expand(Variables.AsMap(vars), line).text) == Tokens(["let"] + args)
    ensures Emulate(vars, env, line).vars == Variables.Let(vars, args).store
    ensures Emulate(vars, env, line).printed == [Variables.Let(vars, args).message]
  {
    var a := Dispatcher.Dispatch(["let"] + args, env.packages);
    EmulateTokens(vars, env, line, ["let"] + args);
    DispatchLet(args, env.packages);
    match Variables.ParseLet(args)
    case Some(b) =>
      assert a == Dispatcher.AssignVariable(b.name, b.value);
    case None =>
      assert a == Dispatcher.PrintUsage(Variables.LetUsage);
  }

  /** A line whose command word is a built-in runs that built-in on the
      remaining tokens, whatever packages are registered: it prints the
      built-in's usage line exactly when the arguments are not accepted, and
      otherwise acts as that built-in with exactly those arguments. */
  lemma {:induction false} ShellBuiltin<H>(vars: Variables.Store, env: Env<H>, line: string,
                                          b: Dispatcher.Builtin, args: seq<string>)
    requires Variables.WellFormed(vars)
    requires env.tokenize(Expander.Expand(Variables.AsMap(vars), line).text) == Tokens([Dispatcher.Name(b)] + args)
    ensures Emulate(vars, env, line).outcome.Acted?
    ensures var a := Emulate(vars, env, line).outcome.action;
            && (a.PrintUsage? <==> !Dispatcher.Accepts(b, args))
            && (a.PrintUsage? ==> Emulate(vars, env, line).printed == [Dispatcher.Usage(b)])
            && (!a.PrintUsage? ==> Dispatcher.Owner(a) == Some(b) && Dispatcher.Carries(a, args))
  {
    var words := [Dispatcher.Name(b)] + args;
    assert words[0] == Dispatcher.Name(b) && words[1..] == args;
    Dispatcher.BuiltinNamedName(b);
    EmulateTokens(vars, env, line, words);
  }

  /** `echo` prints its text and leaves the store alone. */
  lemma {:induction false} ShellEcho<H>(vars: Variables.Store, env: Env<H>, line: string, args: seq<string>)
    requires Variables.WellFormed(vars)
    requires env.tokenize(Expander.Expand(Variables.AsMap(vars), line).text) == Tokens(["echo"] + args)
    ensures Emulate(vars, env, line).vars == vars
    ensures Emulate(vars, env, line).printed == [Echo.EchoText(args)]
  {
    assert Dispatcher.Name(Dispatcher.EchoCmd) == "echo";
    ShellBuiltin(vars, env, line, Dispatcher.EchoCmd, args);
    EmulateTokens(vars, env, line, ["echo"] + args);
  }

  /** `login <user> <password>` checks that user's stored hash against that
      password: it prints the success line exactly when the check accepts,
      and leaves the store alone. */
  lemma {:induction false} ShellLogin<H>(vars: Variables.Store, env: Env<H>, line: string, user: string, password: string)
    requires Variables.WellFormed(vars)
    requires env.tokenize(Expander.Expand(Variables.AsMap(vars), line).text) == Tokens(["login", user, password])
    ensures Emulate(vars, env, line).vars == vars
    ensures Emulate(vars, env, line).printed == Credentials.LoginMessages(env.passwords, user, password, env.verify)
    ensures Credentials.LoginSuccess(user) in Emulate(vars, env, line).printed <==>
              user in env.passwords && env.verify(password, env.passwords[user])
  {
    var words := ["login", user, password];
    assert words[0] == "login" && words[1..] == [user, password];
    EmulateTokens(vars, env, line, words);
  }

  /** `vars` lists the store, whatever arguments follow, and leaves it alone. */
  lemma {:induction false} ShellVars<H>(vars: Variables.Store, env: Env<H>, line: string, args: seq<string>)
    requires Variables.WellFormed(vars)
    requires env.tokenize(Expander.Expand(Variables.AsMap(vars), line).text) == Tokens(["vars"] + args)
    ensures Emulate(vars, env, line).vars == vars
    ensures Emulate(vars, env, line).printed == Variables.Listing(vars)
  {
    assert Dispatcher.Name(Dispatcher.Vars) == "vars";
    ShellBuiltin(vars, env, line, Dispatcher.Vars, args);
    EmulateTokens(vars, env, line, ["vars"] + args);
  }

  /** A command word that is neither built in nor registered is reported as
      unknown, and nothing else happens. */
  lemma {:induction false} ShellUnknown<H>(vars: Variables.Store, env: Env<H>, line: string, command: string, args: seq<string>)
    requires Variables.WellFormed(vars)
    requires Dispatcher.BuiltinNamed(command).None? && command !in env.packages
    requires env.tokenize(Expander.Expand(Variables.AsMap(vars), line).text) == Tokens([command] + args)
    ensures Emulate(vars, env, line).vars == vars
    ensures Emulate(vars, env, line).outcome == Acted(Dispatcher.UnknownCommand(command))
    ensures Emulate(vars, env, line).printed == [Dispatcher.UnknownMessage(command)]
  {
    var words := [command] + args;
    assert words[0] == command;
    EmulateTokens(vars, env, line, words);
  }

  /** A tokenized line: the store changes by the action's assignment, if it
      is one, and the action's report is printed. */
  lemma {:induction false} EmulateTokens<H>(vars: Variables.Store, env: Env<H>, line: string, words: seq<string>)
    requires Variables.WellFormed(vars)
    requires env.tokenize(Expander.Expand(Variables.AsMap(vars), line).text) == Tokens(words)
    ensures var a := Dispatcher.Dispatch(words, env.packages);
            && Emulate(vars, env, line).outcome == Acted(a)
            && Emulate(vars, env, line).vars == (if a.AssignVariable? then Variables.Assign(vars, a.name, a.value) else vars)
            && Emulate(vars, env, line).printed == Report(vars, env, a)
  {
  }

  lemma {:induction false} DispatchLet<H>(args: seq<string>, packages: map<string, H>)
    ensures Dispatcher.Dispatch(["let"] + args, packages) == Dispatcher.RunBuiltin(Dispatcher.Let, args)
  {
    var words := ["let"] + args;
    assert words[0] == "let" && words[1..] == args;
    assert Dispatcher.BuiltinNamed("let") == Some(Dispatcher.Let);
  }

  /** Registering a package command under a built-in's name changes nothing
      the interpreter does: the built-in branch is taken first. */
  lemma {:induction false} RegisteringBuiltinNameIsInert<H>(t: map<string, H>, b: Dispatcher.Builtin, h: H, args: seq<string>)
    ensures Dispatcher.Dispatch([Dispatcher.Name(b)] + args, Registry.Register(t, Dispatcher.Name(b), h).table)
         == Dispatcher.Dispatch([Dispatcher.Name(b)] + args, t)
  {
    var tokens := [Dispatcher.Name(b)] + args;
    assert tokens[0] == Dispatcher.Name(b) && tokens[1..] == args;
  }

  /** The input that ends the prompt loop, once stripped: `exit` in any
      letter case. */
  predicate IsExit(l: string) {
    |l| == 4 && LowerAscii(l[0]) == 'e' && LowerAscii(l[1]) == 'x' && LowerAscii(l[2]) == 'i' && LowerAscii(l[3]) == 't'
  }

  function LowerAscii(c: char): char {
    if 'A' <= c <= 'Z' then (c as int + 32) as char else c
  }

  /** A run of the prompt loop: the store at the end, each line's step, and
      whether the loop ended at `exit`. */
  datatype Session<H> = Session(vars: Variables.Store, steps: seq<Step<H>>, exited: bool)

  /** The prompt loop over lines already stripped, stopping at the first
      `exit`. */
  function Loop<H>(vars: Variables.Store, env: Env<H>, lines: seq<string>): (s: Session<H>)
    requires Variables.WellFormed(vars)
    ensures Variables.WellFormed(s.vars)
    ensures |s.steps| <= |lines|
    ensures !s.exited ==> |s.steps| == |lines|
    ensures s.exited ==> |s.steps| < |lines| && IsExit(lines[|s.steps|])
    ensures forall i :: 0 <= i < |s.steps| ==> !IsExit(lines[i])
    decreases |lines|
  {
    if |lines| == 0 then Session(vars, [], false)
    else if IsExit(lines[0]) then Session(vars, [], true)
    else
      var step := Emulate(vars, env, lines[0]);
      var rest := Loop(step.vars, env, lines[1..]);
      LoopShift(lines, |rest.steps|);
      Session(rest.vars, [step] + rest.steps, rest.exited)
  }

  /** A line that is not `exit` is handled as one `emulate` step, and the
      store it leaves is the store afterwards. */
  lemma {:induction false} LoopSingle<H>(vars: Variables.Store, env: Env<H>, l: string)
    requires Variables.WellFormed(vars) && !IsExit(l)
    ensures var step := Emulate(vars, env, l);
            Loop(vars, env, [l]) == Session(step.vars, [step], false)
  {
    assert [l][1..] == [];
  }

  /** The loop runs over input in pieces: lines without an `exit` are handled
      first, and the rest of the input is handled from the store they left,
      its steps following theirs. */
  lemma {:induction false} LoopAppend<H>(vars: Variables.Store, env: Env<H>, a: seq<string>, b: seq<string>)
    requires Variables.WellFormed(vars)
    requires forall i :: 0 <= i < |a| ==> !IsExit(a[i])
    ensures var first := Loop(vars, env, a);
            var rest := Loop(first.vars, env, b);
            Loop(vars, env, a + b) == Session(rest.vars, first.steps + rest.steps, rest.exited)
    decreases |a|
  {
    if |a| == 0 {
      assert a + b == b;
    } else {
      NoExitTail(a);
      var step := LoopCons(vars, env, a, b);
      LoopAppend(step.vars, env, a[1..], b);
      var tail := Loop(step.vars, env, a[1..]);
      var rest := Loop(tail.vars, env, b);
      StepsAssociate([step], tail.steps, rest.steps);
    }
  }

  lemma {:induction false} StepsAssociate<H>(x: seq<Step<H>>, y: seq<Step<H>>, z: seq<Step<H>>)
    ensures x + (y + z) == (x + y) + z
  {
  }

  lemma {:induction false} NoExitTail(a: seq<string>)
    requires |a| > 0 && forall i :: 0 <= i < |a| ==> !IsExit(a[i])
    ensures forall i :: 0 <= i < |a[1..]| ==> !IsExit(a[1..][i])
  {
    assert forall i :: 0 <= i < |a[1..]| ==> a[1..][i] == a[i + 1];
  }

  /** The loop on input whose first line is not `exit`, with or without more
      input after it: that line's step, then the loop on the rest from the
      store the step left. */
  lemma {:induction false} LoopCons<H>(vars: Variables.Store, env: Env<H>, a: seq<string>, b: seq<string>)
    returns (step: Step<H>)
    requires Variables.WellFormed(vars) && |a| > 0 && !IsExit(a[0])
    ensures Variables.WellFormed(step.vars)
    ensures var rest := Loop(step.vars, env, a[1..]);
            Loop(vars, env, a) == Session(rest.vars, [step] + rest.steps, rest.exited)
    ensures var rest := Loop(step.vars, env, a[1..] + b);
            Loop(vars, env, a + b) == Session(rest.vars, [step] + rest.steps, rest.exited)
  {
    var ab := a + b;
    assert ab[0] == a[0] && ab[1..] == a[1..] + b;
    step := LoopUnfold(vars, env, a);
    var again := LoopUnfold(vars, env, ab);
    assert again == step;
  }

  lemma {:induction false} LoopUnfold<H>(vars: Variables.Store, env: Env<H>, lines: seq<string>)
    returns (step: Step<H>)
    requires Variables.WellFormed(vars) && |lines| > 0 && !IsExit(lines[0])
    ensures step == Emulate(vars, env, lines[0]) && Variables.WellFormed(step.vars)
    ensures var rest := Loop(step.vars, env, lines[1..]);
            Loop(vars, env, lines) == Session(rest.vars, [step] + rest.steps, rest.exited)
  {
    step := Emulate(vars, env, lines[0]);
  }

  lemma {:induction false} LoopShift(lines: seq<string>, k: nat)
    requires 0 < |lines| && !IsExit(lines[0]) && k <= |lines| - 1
    requires forall i :: 0 <= i < k ==> !IsExit(lines[1..][i])
    ensures forall i :: 0 <= i < k + 1 ==> !IsExit(lines[i])
    ensures k < |lines| - 1 ==> lines[1..][k] == lines[k + 1]
  {
    assert forall i :: 0 < i < |lines| ==> lines[i] == lines[1..][i - 1];
  }

  /** The prompt loop over the lines as typed: each is stripped, and the loop
      handles every line unless a stripped line is `exit`, where it stops. */
  function Run<H>(vars: Variables.Store, env: Env<H>, typed: seq<string>): (s: Session<H>)
    requires Variables.WellFormed(vars)
    ensures Variables.WellFormed(s.vars)
    ensures !s.exited ==> |s.steps| == |typed|
    ensures s.exited ==> |s.steps| < |typed| && IsExit(Strip(typed[|s.steps|], Whitespace))
  {
    Loop(vars, env, seq(|typed|, i requires 0 <= i < |typed| => Strip(typed[i], Whitespace)))
  }

  /** Nothing typed after `exit` is handled. */
  lemma {:induction false} LoopStopsAtExit<H>(vars: Variables.Store, env: Env<H>, before: seq<string>, exit: string, after: seq<string>)
    requires Variables.WellFormed(vars) && IsExit(exit)
    ensures Loop(vars, env, before + [exit] + after) == Loop(vars, env, before + [exit])
    decreases |before|
  {
    if |before| == 0 {
      assert (before + [exit] + after)[0] == exit && (before + [exit])[0] == exit;
    } else if !IsExit(before[0]) {
      var long, short := before + [exit] + after, before + [exit];
      assert long[0] == before[0] && short[0] == before[0];
      assert long[1..] == before[1..] + [exit] + after;
      assert short[1..] == before[1..] + [exit];
      var step := LoopUnfold(vars, env, long);
      var again := LoopUnfold(vars, env, short);
      assert again == step;
      LoopStopsAtExit(step.vars, env, before[1..], exit, after);
    } else {
      assert (before + [exit] + after)[0] == before[0] && (before + [exit])[0] == before[0];
    }
  }
}

=== FILE: text.dfy ===
/** The handful of Python string operations the interpreter relies on:
    `str.strip`, `str.split(sep, 1)`, `str.replace` and `sep.join`, written
    over `seq<char>`. */
module Text {

  /** Python's `str.isspace()`: the characters `str.strip()` removes when it is
      called without an argument. */
  predicate IsSpace(c: char) {
    || ('\t' <= c <= '\r')
    || ('\U{1C}' <= c <= ' ')
    || c == '\U{85}' || c == '\U{A0}' || c == '\U{1680}'
    || ('\U{2000}' <= c <= '\U{200A}')
    || c == '\U{2028}' || c == '\U{2029}' || c == '\U{202F}'
    || c == '\U{205F}' || c == '\U{3000}'
  }

  /** The argument of `str.strip`: none (whitespace) or an explicit character set. */
  datatype StripSet = Whitespace | Chars(cs: set<char>) {
    predicate Drops(c: char) {
      match this
      case Whitespace => IsSpace(c)
      case Chars(cs) => c in cs
    }
  }

  /** Every character of `s` would be removed by stripping with `k`. */
  predicate AllDropped(s: string, k: StripSet) {
    forall i :: 0 <= i < |s| ==> k.Drops(s[i])
  }

  /** `s` neither starts nor ends with a character that `k` strips. */
  predicate Trimmed(s: string, k: StripSet) {
    |s| == 0 || (!k.Drops(s[0]) && !k.Drops(s[|s| - 1]))
  }

  /** `s.lstrip(k)`: the longest suffix of `s` left after removing strippable
      characters from the front. */
  function StripLeft(s: string, k: StripSet): (r: string)
    ensures |r| <= |s| && r == s[|s| - |r|..]
    ensures AllDropped(s[..|s| - |r|], k)
    ensures |r| > 0 ==> !k.Drops(r[0])
    decreases |s|
  {
    if |s| > 0 && k.Drops(s[0]) then StripLeft(s[1..], k) else s
  }

  /** `s.rstrip(k)`: the longest prefix of `s` left after removing strippable
      characters from the back. */
  function StripRight(s: string, k: StripSet): (r: string)
    ensures |r| <= |s| && r == s[..|r|]
    ensures AllDropped(s[|r|..], k)
    ensures |r| > 0 ==> !k.Drops(r[|r| - 1])
    decreases |s|
  {
    if |s| > 0 && k.Drops(s[|s| - 1]) then StripRight(s[..|s| - 1], k) else s
  }

  /** `s.strip(k)`: `s` with strippable characters removed from both ends. */
  function Strip(s: string, k: StripSet): (r: string)
    ensures Trimmed(r, k) && |r| <= |s|
  {
    var l := StripLeft(s, k);
    var r := StripRight(l, k);
    assert |r| == 0 || r[0] == l[0];
    r
  }

  lemma {:induction false} StripLeftOfPadded(a: string, t: string, k: StripSet)
    requires AllDropped(a, k)
    requires |t| == 0 || !k.Drops(t[0])
    ensures StripLeft(a + t, k) == t
    decreases |a|
  {
    if |a| == 0 {
      assert a + t == t;
    } else {
      assert (a + t)[1..] == a[1..] + t;
      StripLeftOfPadded(a[1..], t, k);
    }
  }

  lemma {:induction false} StripRightOfPadded(t: string, b: string, k: StripSet)
    requires AllDropped(b, k)
    requires |t| == 0 || !k.Drops(t[|t| - 1])
    ensures StripRight(t + b, k) == t
    decreases |b|
  {
    if |b| == 0 {
      assert t + b == t;
    } else {
      assert (t + b)[..|t + b| - 1] == t + b[..|b| - 1];
      StripRightOfPadded(t, b[..|b| - 1], k);
    }
  }

  /** Every string is its stripped form with strippable margins around it. */
  lemma {:induction false} StripMargins(s: string, k: StripSet) returns (a: string, b: string)
    ensures AllDropped(a, k) && AllDropped(b, k) && s == a + Strip(s, k) + b
  {
    var l := StripLeft(s, k);
    a := LeftMargin(s, k);
    b := RightMargin(l, k);
    Regroup(s, a, l, StripRight(l, k), b);
  }

  lemma {:induction false} Regroup(s: string, a: string, l: string, r: string, b: string)
    requires s == a + l && l == r + b
    ensures s == a + r + b
  {
    assert a + (r + b) == a + r + b;
  }

  lemma {:induction false} LeftMargin(s: string, k: StripSet) returns (a: string)
    ensures AllDropped(a, k) && s == a + StripLeft(s, k)
  {
    var l := StripLeft(s, k);
    a := s[..|s| - |l|];
    SplitAt(s, |s| - |l|);
  }

  lemma {:induction false} RightMargin(l: string, k: StripSet) returns (b: string)
    ensures AllDropped(b, k) && l == StripRight(l, k) + b
  {
    var r := StripRight(l, k);
    b := l[|r|..];
    SplitAt(l, |r|);
  }

  lemma {:induction false} SplitAt(s: string, n: nat)
    requires n <= |s|
    ensures s == s[..n] + s[n..]
  {
  }

  /** Stripping is exactly the removal of a strippable margin on each side:
      `Strip(s) == t` holds precisely when `s` is `t` padded on both sides with
      strippable characters and `t` has no strippable end of its own. */
  lemma {:induction false} StripOfPadded(a: string, t: string, b: string, k: StripSet)
    requires AllDropped(a, k) && AllDropped(b, k)
    requires |t| > 0 && Trimmed(t, k)
    ensures Strip(a + t + b, k) == t
  {
    assert a + t + b == a + (t + b);
    StripLeftOfPadded(a, t + b, k);
    StripRightOfPadded(t, b, k);
  }

  /** Stripping twice is the same as stripping once. */
  lemma {:induction false} StripIdempotent(s: string, k: StripSet)
    ensures Strip(Strip(s, k), k) == Strip(s, k)
  {
    StripTrimmed(Strip(s, k), k);
  }

  /** Text with no strippable end is left as it is. */
  lemma {:induction false} StripTrimmed(t: string, k: StripSet)
    requires Trimmed(t, k)
    ensures Strip(t, k) == t
  {
    if |t| > 0 {
      assert "" + t + "" == t;
      StripOfPadded("", t, "", k);
    } else {
      assert StripLeft(t, k) == t && StripRight(t, k) == t;
    }
  }

  /** Index of the first `c` in `s`. */
  function IndexOf(s: string, c: char): (i: nat)
    requires c in s
    ensures i < |s| && s[i] == c && c !in s[..i]
  {
    if s[0] == c then 0 else
      assert c in s[1..] by {
        var j :| 0 <= j < |s| && s[j] == c;
        assert s[1..][j - 1] == c;
      }
      var i := 1 + IndexOf(s[1..], c);
      assert s[..i] == [s[0]] + s[1..][..i - 1];
      i
  }

  /** `s.split(c, 1)` when `c` occurs in `s`: the text before the first `c`
      and the text after it. */
  function SplitFirst(s: string, c: char): (parts: (string, string))
    requires c in s
    ensures s == parts.0 + [c] + parts.1
    ensures c !in parts.0
  {
    var i := IndexOf(s, c);
    assert s == s[..i] + [c] + s[i + 1..];
    (s[..i], s[i + 1..])
  }

  /** Splitting on the first separator undoes a join of a separator-free head
      with any tail. */
  lemma {:induction false} SplitFirstOfJoined(head: string, c: char, tail: string)
    requires c !in head
    ensures c in head + [c] + tail
    ensures SplitFirst(head + [c] + tail, c) == (head, tail)
  {
    var s := head + [c] + tail;
    assert s[|head|] == c;
    var p := SplitFirst(s, c);
    assert s[|p.0|] == c;
    assert forall i :: 0 <= i < |head| ==> s[i] == head[i] != c;
    assert forall i :: 0 <= i < |p.0| ==> s[i] == p.0[i] != c;
    assert p.0 == s[..|head|] == head;
    assert p.1 == s[|head| + 1..] == tail;
  }

  /** `sep.join(xs)`. */
  function Join(xs: seq<string>, sep: string): string
  {
    if |xs| == 0 then ""
    else if |xs| == 1 then xs[0]
    else xs[0] + sep + Join(xs[1..], sep)
  }

  /** Joining one more item adds the separator and that item at the end:
      the separator goes between items only, never before the first. */
  lemma {:induction false} JoinAppend(xs: seq<string>, y: string, sep: string)
    requires |xs| > 0
    ensures Join(xs + [y], sep) == Join(xs, sep) + sep + y
    decreases |xs|
  {
    var s := xs + [y];
    assert s[0] == xs[0] && s[1..] == xs[1..] + [y];
    if |xs| > 1 {
      JoinAppend(xs[1..], y, sep);
    } else {
      assert s[1..] == [y];
    }
  }

  predicate StartsWith(s: string, p: string) {
    |p| <= |s| && s[..|p|] == p
  }

  /** `p in s` for strings: `p` occurs somewhere in `s`. */
  predicate Occurs(s: string, p: string) {
    exists i :: 0 <= i <= |s| && StartsWith(s[i..], p)
  }

  /** `s.replace(pat, rep)`: the leftmost occurrence of `pat` is replaced and
      the scan resumes after it, so replaced occurrences never overlap. */
  function ReplaceAll(s: string, pat: string, rep: string): (r: string)
    requires |pat| > 0
    ensures |rep| <= |pat| ==> |r| <= |s|
    ensures |rep| == |pat| ==> |r| == |s|
    decreases |s|
  {
    if |s| == 0 then ""
    else if StartsWith(s, pat) then rep + ReplaceAll(s[|pat|..], pat, rep)
    else [s[0]] + ReplaceAll(s[1..], pat, rep)
  }

  /** Text in which the pattern does not occur is left alone. */
  lemma {:induction false} ReplaceAllAbsent(s: string, pat: string, rep: string)
    requires |pat| > 0
    requires !Occurs(s, pat)
    ensures ReplaceAll(s, pat, rep) == s
    decreases |s|
  {
    if |s| > 0 {
      assert s[0..] == s;
      assert !StartsWith(s, pat);
      assert !Occurs(s[1..], pat) by {
        forall i | 0 <= i <= |s[1..]|
          ensures !StartsWith(s[1..][i..], pat)
        {
          assert s[1..][i..] == s[i + 1..];
        }
      }
      ReplaceAllAbsent(s[1..], pat, rep);
    }
  }

  /** The first occurrence is replaced and the rest of the text is processed
      on its own: when `pat` first occurs right after `p`, the prefix `p` is
      kept verbatim. */
  lemma {:induction false} ReplaceAllFirst(p: string, pat: string, rep: string, s: string)
    requires |pat| > 0
    requires !Occurs((p + pat)[..|p| + |pat| - 1], pat)
    ensures ReplaceAll(p + pat + s, pat, rep) == p + rep + ReplaceAll(s, pat, rep)
    decreases |p|
  {
    var w := p + pat + s;
    if |p| == 0 {
      assert w == pat + s;
      assert StartsWith(w, pat);
      assert w[|pat|..] == s;
    } else {
      NotAtFront(p, pat, s);
      NoEarlierInTail(p, pat);
      assert w[0] == p[0] && w[1..] == p[1..] + pat + s;
      assert ReplaceAll(w, pat, rep) == [p[0]] + ReplaceAll(p[1..] + pat + s, pat, rep);
      ReplaceAllFirst(p[1..], pat, rep, s);
      var t := ReplaceAll(s, pat, rep);
      assert [p[0]] + (p[1..] + rep + t) == p + rep + t;
    }
  }

  /** With a non-empty prefix that holds no earlier occurrence, the text does
      not start with the pattern. */
  lemma {:induction false} NotAtFront(p: string, pat: string, s: string)
    requires |p| > 0 && |pat| > 0
    requires !Occurs((p + pat)[..|p| + |pat| - 1], pat)
    ensures !StartsWith(p + pat + s, pat)
  {
    var u := (p + pat)[..|p| + |pat| - 1];
    assert u[0..] == u;
    assert !StartsWith(u, pat);
    assert (p + pat + s)[..|pat|] == u[..|pat|];
  }

  /** No earlier occurrence in a prefix means none in the prefix's tail either. */
  lemma {:induction false} NoEarlierInTail(p: string, pat: string)
    requires |p| > 0 && |pat| > 0
    requires !Occurs((p + pat)[..|p| + |pat| - 1], pat)
    ensures !Occurs((p[1..] + pat)[..|p[1..]| + |pat| - 1], pat)
  {
    var u := (p + pat)[..|p| + |pat| - 1];
    var u' := (p[1..] + pat)[..|p[1..]| + |pat| - 1];
    assert u' == u[1..];
    forall i | 0 <= i <= |u'|
      ensures !StartsWith(u'[i..], pat)
    {
      assert u'[i..] == u[i + 1..];
    }
  }

  /** Text no longer than the pattern is left alone unless it is the pattern. */
  lemma {:induction false} ReplaceAllShort(s: string, pat: string, rep: string)
    requires |pat| > 0 && |s| <= |pat| && s != pat
    ensures ReplaceAll(s, pat, rep) == s
    decreases |s|
  {
    if |s| > 0 {
      assert !StartsWith(s, pat) by {
        assert |s| < |pat| || s[..|pat|] == s;
      }
      ReplaceAllShort(s[1..], pat, rep);
    }
  }

  /** The pattern alone is replaced by the replacement. */
  lemma {:induction false} ReplaceAllWhole(pat: string, rep: string)
    requires |pat| > 0
    ensures ReplaceAll(pat, pat, rep) == rep
  {
    assert pat[..|pat|] == pat;
    assert pat[|pat|..] == "";
  }

  /** Stripping keeps every character it does not strip, and adds none. */
  lemma {:induction false} StripKeepsContent(s: string, k: StripSet, c: char)
    ensures c in Strip(s, k) ==> c in s
    ensures c in s && !k.Drops(c) ==> c in Strip(s, k)
  {
    var a, b := StripMargins(s, k);
    MarginsKeepContent(s, a, Strip(s, k), b, k, c);
  }

  lemma {:induction false} MarginsKeepContent(s: string, a: string, r: string, b: string, k: StripSet, c: char)
    requires s == a + r + b && AllDropped(a, k) && AllDropped(b, k)
    ensures c in r ==> c in s
    ensures c in s && !k.Drops(c) ==> c in r
  {
    if c in r {
      var j :| 0 <= j < |r| && r[j] == c;
      assert s[|a| + j] == c;
    }
    if c in s && !k.Drops(c) {
      var j :| 0 <= j < |s| && s[j] == c;
      assert forall m :: 0 <= m < |a| ==> s[m] == a[m];
      assert forall m :: |a| + |r| <= m < |s| ==> s[m] == b[m - |a| - |r|];
      assert |a| <= j < |a| + |r|;
      assert r[j - |a|] == c;
    }
  }
}

=== FILE: variables.dfy ===
/** The shell variable store and the two commands that touch it directly:
    `let <name>=<value>` (assignment) and `vars` (listing). The store is a
    Python dict, so it remembers the order in which names were first set;
    it is modelled as a sequence of bindings with distinct names. */
module Variables {
  import opened Wrappers
  import opened Text

  datatype Binding = Binding(name: string, value: string)

  /** Bindings in first-assignment order. */
  type Store = seq<Binding>

  /** No name is bound twice. */
  predicate WellFormed(s: Store) {
    forall i, j :: 0 <= i < j < |s| ==> s[i].name != s[j].name
  }

  /** The position of the first binding of `n`, if any. */
  function Find(s: Store, n: string): (r: Option<nat>)
    ensures r.Some? ==> r.value < |s| && s[r.value].name == n
    ensures r.Some? ==> forall j :: 0 <= j < r.value ==> s[j].name != n
    ensures r.None? ==> forall j :: 0 <= j < |s| ==> s[j].name != n
    decreases |s|
  {
    if |s| == 0 then None
    else if s[0].name == n then Some(0)
    else
      var rest := Find(s[1..], n);
      assert forall j :: 0 < j < |s| ==> s[j] == s[1..][j - 1];
      if rest.Some? then Some(rest.value + 1) else None
  }

  /** The binding of `n` is at position `i` of a well-formed store. */
  lemma {:induction false} FindAt(s: Store, n: string, i: nat)
    requires WellFormed(s) && i < |s| && s[i].name == n
    ensures Find(s, n) == Some(i)
  {
  }

  /** The value bound to `n`, if any. */
  function Lookup(s: Store, n: string): (r: Option<string>)
    ensures r.None? <==> forall j :: 0 <= j < |s| ==> s[j].name != n
    ensures WellFormed(s) ==> forall j :: 0 <= j < |s| && s[j].name == n ==> r == Some(s[j].value)
  {
    match Find(s, n)
    case Some(i) => Some(s[i].value)
    case None => None
  }

  /** The store seen as a plain name-to-value map, as the expander reads it. */
  function AsMap(s: Store): (m: map<string, string>)
    requires WellFormed(s)
    ensures forall n :: n in m <==> Lookup(s, n).Some?
    ensures forall n :: n in m ==> Lookup(s, n) == Some(m[n])
    decreases |s|
  {
    if |s| == 0 then map[]
    else
      var rest := AsMap(s[1..]);
      LookupCons(s);
      rest[s[0].name := s[0].value]
  }

  /** Looking up in a store is looking at its first binding, then in the rest. */
  lemma {:induction false} LookupCons(s: Store)
    requires WellFormed(s) && |s| > 0
    ensures forall n :: Lookup(s, n) == if s[0].name == n then Some(s[0].value) else Lookup(s[1..], n)
  {
    forall n ensures Lookup(s, n) == if s[0].name == n then Some(s[0].value) else Lookup(s[1..], n) {
      assert forall j :: 0 < j < |s| ==> s[j] == s[1..][j - 1];
      if s[0].name != n {
        match Find(s[1..], n)
        case Some(i) => assert s[i + 1].name == n;
        case None =>
      }
    }
  }

  /** `_shell_variables[n] = v`: overwrites in place when `n` is already set
      (keeping its position), appends otherwise, and leaves every other
      variable as it was. */
  function Assign(s: Store, n: string, v: string): (r: Store)
    requires WellFormed(s)
    ensures WellFormed(r)
    ensures Lookup(r, n) == Some(v)
    ensures forall m :: m != n ==> Lookup(r, m) == Lookup(s, m)
    ensures Lookup(s, n).Some? ==> |r| == |s| && forall i :: 0 <= i < |s| ==> r[i].name == s[i].name
    ensures Lookup(s, n).None? ==> r == s + [Binding(n, v)]
  {
    match Find(s, n)
    case Some(i) =>
      var r := s[i := Binding(n, v)];
      assert WellFormed(r);
      FindAt(r, n, i);
      AssignKeeps(s, r, n);
      r
    case None =>
      var r := s + [Binding(n, v)];
      assert WellFormed(r);
      FindAt(r, n, |s|);
      AssignKeeps(s, r, n);
      r
  }

  /** A store whose bindings agree with `s` except at `n` looks up every other
      name as `s` does. */
  lemma {:induction false} AssignKeeps(s: Store, r: Store, n: string)
    requires WellFormed(s) && WellFormed(r) && |s| <= |r|
    requires forall i :: 0 <= i < |s| && s[i].name != n ==> r[i] == s[i]
    requires forall i :: 0 <= i < |s| && s[i].name == n ==> r[i].name == n
    requires forall i :: |s| <= i < |r| ==> r[i].name == n
    ensures forall m :: m != n ==> Lookup(r, m) == Lookup(s, m)
  {
    forall m | m != n ensures Lookup(r, m) == Lookup(s, m) {
      match Find(s, m)
      case Some(i) => FindAt(r, m, i);
      case None =>
        assert forall j :: 0 <= j < |r| ==> r[j].name != m by {
          forall j | 0 <= j < |r| ensures r[j].name != m {
            if j < |s| && s[j].name != n {
              assert r[j] == s[j];
            }
          }
        }
    }
  }

  /** Assigning updates the map view at exactly one name. */
  lemma {:induction false} AssignAsMap(s: Store, n: string, v: string)
    requires WellFormed(s)
    ensures AsMap(Assign(s, n, v)) == AsMap(s)[n := v]
  {
    var a := AsMap(Assign(s, n, v));
    var b := AsMap(s)[n := v];
    forall m
      ensures m in a <==> m in b
      ensures m in a ==> a[m] == b[m]
    {
      AssignAsMapAt(s, n, v, m);
    }
    assert a.Keys == b.Keys;
  }

  lemma {:induction false} AssignAsMapAt(s: Store, n: string, v: string, m: string)
    requires WellFormed(s)
    ensures m in AsMap(Assign(s, n, v)) <==> m in AsMap(s)[n := v]
    ensures m in AsMap(Assign(s, n, v)) ==> AsMap(Assign(s, n, v))[m] == AsMap(s)[n := v][m]
  {
    var r := Assign(s, n, v);
    if m != n {
      assert Lookup(r, m) == Lookup(s, m);
    }
  }

  /** A second assignment to the same name replaces the first: assignments
      overwrite, they do not accumulate. */
  lemma {:induction false} AssignTwice(s: Store, n: string, v1: string, v2: string)
    requires WellFormed(s)
    ensures Assign(Assign(s, n, v1), n, v2) == Assign(s, n, v2)
  {
    var s1 := Assign(s, n, v1);
    match Find(s, n)
    case Some(i) =>
      FindAt(s1, n, i);
    case None =>
      FindAt(s1, n, |s|);
  }

  /** The argument shape `let` accepts: a single word containing `=`, split at
      its first `=` into a name and a value, both stripped of whitespace.
      Any other argument list is a usage error. */
  function ParseLet(args: seq<string>): (b: Option<Binding>)
    ensures b.Some? <==> |args| == 1 && '=' in args[0]
  {
    if |args| == 1 && '=' in args[0] then
      var (lhs, rhs) := SplitFirst(args[0], '=');
      Some(Binding(Strip(lhs, Whitespace), Strip(rhs, Whitespace)))
    else None
  }

  /** Only the first `=` separates the name from the value; later ones are
      part of the value. */
  lemma {:induction false} ParseLetSplitsAtFirst(lhs: string, rhs: string)
    requires '=' !in lhs
    ensures ParseLet([lhs + "=" + rhs]) == Some(Binding(Strip(lhs, Whitespace), Strip(rhs, Whitespace)))
  {
    SplitFirstOfJoined(lhs, '=', rhs);
  }

  /** What `let` prints after an assignment. */
  function SetMessage(n: string, v: string): string {
    "Variable '" + n + "' set to '" + v + "'"
  }

  /** The lines `let` prints, and the store after it. */
  datatype LetResult = LetResult(store: Store, message: string)

  const LetUsage := "Usage: let <varname>=<value>"

  /** `let`: a well-shaped argument assigns the stripped value to the stripped
      name and reports it; anything else prints the usage line and changes
      nothing. */
  function Let(s: Store, args: seq<string>): (r: LetResult)
    requires WellFormed(s)
    ensures WellFormed(r.store)
    ensures ParseLet(args).None? ==> r == LetResult(s, LetUsage)
    ensures ParseLet(args).Some? ==>
              var b := ParseLet(args).value;
              && AsMap(r.store) == AsMap(s)[b.name := b.value]
              && r.message == SetMessage(b.name, b.value)
  {
    match ParseLet(args)
    case Some(b) =>
      AssignAsMap(s, b.name, b.value);
      LetResult(Assign(s, b.name, b.value), SetMessage(b.name, b.value))
    case None => LetResult(s, LetUsage)
  }

  /** One listing line per variable, in store order. */
  function ListingLine(b: Binding): string {
    "  " + b.name + "='" + b.value + "'"
  }

  /** `vars`: a header and one line per variable, or a single line saying the
      store is empty. */
  function Listing(s: Store): (lines: seq<string>)
    ensures |s| == 0 ==> lines == ["No shell variables currently set."]
    ensures |s| > 0 ==> |lines| == |s| + 1 && lines[0] == "Current shell variables:"
    ensures |s| > 0 ==> forall i :: 0 <= i < |s| ==> lines[i + 1] == ListingLine(s[i])
  {
    if |s| == 0 then ["No shell variables currently set."]
    else ["Current shell variables:"] + seq(|s|, i requires 0 <= i < |s| => ListingLine(s[i]))
  }

  /** `vars` shows the variables as the map view holds them: every set
      variable has its line, at the position where it was first set, with its
      current value; every line after the header is a set variable with its
      current value; and the empty-store line appears exactly when nothing
      is set. */
  lemma {:induction false} ListingShowsMap(s: Store)
    requires WellFormed(s)
    ensures AsMap(s) == map[] <==> Listing(s) == ["No shell variables currently set."]
    ensures forall n :: n in AsMap(s) ==>
              && Find(s, n).Some?
              && Listing(s)[Find(s, n).value + 1] == ListingLine(Binding(n, AsMap(s)[n]))
    ensures AsMap(s) != map[] ==>
              forall i :: 1 <= i < |Listing(s)| ==>
                var n := s[i - 1].name;
                n in AsMap(s) && Listing(s)[i] == ListingLine(Binding(n, AsMap(s)[n]))
  {
    ListingEmpty(s);
    forall n | n in AsMap(s)
      ensures Find(s, n).Some? && Listing(s)[Find(s, n).value + 1] == ListingLine(Binding(n, AsMap(s)[n]))
    {
      ListingHasVariable(s, n);
    }
    forall i | 1 <= i < |Listing(s)| && AsMap(s) != map[]
      ensures s[i - 1].name in AsMap(s) && Listing(s)[i] == ListingLine(Binding(s[i - 1].name, AsMap(s)[s[i - 1].name]))
    {
      ListingLineIsVariable(s, i);
    }
  }

  lemma {:induction false} ListingEmpty(s: Store)
    requires WellFormed(s)
    ensures AsMap(s) == map[] <==> Listing(s) == ["No shell variables currently set."]
  {
    if |s| > 0 {
      LookupAt(s, 0);
      assert s[0].name in AsMap(s);
      assert |Listing(s)| != 1;
    }
  }

  lemma {:induction false} ListingHasVariable(s: Store, n: string)
    requires WellFormed(s) && n in AsMap(s)
    ensures Find(s, n).Some? && Listing(s)[Find(s, n).value + 1] == ListingLine(Binding(n, AsMap(s)[n]))
  {
    var i := Find(s, n).value;
    LookupAt(s, i);
  }

  lemma {:induction false} ListingLineIsVariable(s: Store, i: int)
    requires WellFormed(s) && |s| > 0 && 1 <= i < |Listing(s)|
    ensures s[i - 1].name in AsMap(s) && Listing(s)[i] == ListingLine(Binding(s[i - 1].name, AsMap(s)[s[i - 1].name]))
  {
    LookupAt(s, i - 1);
  }

  /** In a well-formed store the binding at position `i` is the one lookup finds. */
  lemma {:induction false} LookupAt(s: Store, i: nat)
    requires WellFormed(s) && i < |s|
    ensures Lookup(s, s[i].name) == Some(s[i].value)
    decreases i
  {
    if i > 0 {
      LookupAt(s[1..], i - 1);
    }
  }

  /** After `let x=5` then `let x=9`, `vars` shows `x='9'` on the line where
      `x='5'` was and every other line as before: the second assignment
      overwrites, it does not add a variable. */
  lemma {:induction false} LetOverwritesListing(s: Store, n: string, v1: string, v2: string)
    requires WellFormed(s)
    ensures var s1 := Assign(s, n, v1);
            var s2 := Assign(s1, n, v2);
            && |Listing(s2)| == |Listing(s1)|
            && forall i :: 1 <= i < |Listing(s1)| ==>
                 Listing(s2)[i] == if s1[i - 1].name == n then ListingLine(Binding(n, v2)) else Listing(s1)[i]
  {
    var s1 := Assign(s, n, v1);
    var s2 := Assign(s1, n, v2);
    assert |s2| == |s1|;
    forall i | 0 <= i < |s1|
      ensures s2[i] == if s1[i].name == n then Binding(n, v2) else s1[i]
    {
      LookupAt(s1, i);
      LookupAt(s2, i);
    }
  }
}

=== FILE: wrappers.dfy ===
/** Optional values, used wherever the interpreter may or may not find something
    (a variable, a built-in name, a parsed credential record). */
module Wrappers {

  datatype Option<+T> = None | Some(value: T)
}
